=== FILE: README.md ===
# Wound-classification endpoint: a Dafny model of `POST /api/analyze`

The application photographs a chronic wound. It asks one of two vision models,
Gemini or OpenAI's GPT-4o, to classify the wound into seven closed
vocabularies and to write care recommendations. It appends a twelve-column
row to a Google Sheet, best effort, and answers the browser. This project
models the deterministic part of that request handler,
`app/api/analyze/route.ts`, and proves properties of it.

- **Prompt**: the base instruction text with the seven vocabularies, kept
  verbatim. The patient-context block, where an absent or falsy field
  (`edad`, `sexo`, `vascular`, `cardiaca`, `diabetico`) falls back to
  "No especificada", "No especificado" or "No". The final prompt is the base
  text, a line break, then the block.
- **Normalise**: the Gemini reply clean-up. Every "```json" is deleted, then
  every "```", then the text is trimmed. The data-URI header
  `^data:image/\w+;base64,` is stripped from the image sent to Gemini.
- **SheetLog**: the row of columns A to L. Column K says "ChatGPT" only for
  the tag `chatgpt`. The `sheetStatus` text is one of "No configurado",
  "Guardado OK" or "Fallo Excel: …".
- **Analyze**: the request itself.
  - A falsy image gives 400.
  - A provider or `JSON.parse` failure gives 500 "Error en la IA: …" and logs
    nothing.
  - Otherwise the answer is 200 with the model's object spread and
    `sheetStatus` added.
  - Anything thrown outside those steps gives 500 "Error Interno: …".
  - The handler returns its response and the ordered list of external calls
    it made. "Never called" and "called with the same prompt" are therefore
    statements about that list.
- **JsValues** and **Text**: the JavaScript semantics the handler leans on.
  They cover truthiness, `?.` against plain property reads, template-literal
  conversion (which throws for an object with its own `toString` key), object
  spread, `trim`'s exact whitespace set, and global literal `replace`.

The external services are fields of `Analyze.Env`, each returning
`Ok`/`Err` with the thrown message:
- Gemini `generateContent` + `text()`;
- OpenAI chat completion, reduced to `choices[0].message.content`;
- `JSON.parse`;
- the spreadsheet append;
- the clock (`toLocaleString()`);
- the three sheet settings.

Two behaviours of the code are easy to miss:
- An empty OpenAI reply (`null` or `""`) is not an error. It is parsed as
  `"{}"` and answered 200 with `sheetStatus` alone (`EmptyOpenAiReplySucceeds`).
  An empty Gemini reply reaches `JSON.parse("")` and fails like any other
  parse error.
- The image check is JavaScript falsiness, not absence. `""`, `0` and `false`
  are refused with 400 as well.

## Model

| member | source | states |
|---|---|---|
| `Normalise.StripFences` | app/api/analyze/route.ts:103 | the cleaned reply contains no "```" at all and is never longer than the reply |
| `Normalise.StripFencesIdempotent` | app/api/analyze/route.ts:103 | cleaning an already cleaned reply changes nothing |
| `Normalise.StripFencesOfFenceFree` | app/api/analyze/route.ts:103 | on a reply without "```" the clean-up is exactly `trim` |
| `Normalise.StripFencesOfWrapped` | app/api/analyze/route.ts:103 | a reply wrapped in "```json" … "```" cleans to the same text as the bare reply |
| `Normalise.DeleteFenceLeavesNone` | app/api/analyze/route.ts:103 | deleting "```" left to right leaves no occurrence, even where deletions bring backticks together |
| `Normalise.FenceFreeHasNoJsonFence` | app/api/analyze/route.ts:103 | once "```" is gone "```json" is gone too, so the first deletion never undoes the second |
| `Normalise.StripDataUri` | app/api/analyze/route.ts:98 | the result is a suffix of the image, and whatever was removed is exactly one data-URI header |
| `Normalise.StripDataUriOfHeader` | app/api/analyze/route.ts:98 | conversely, a leading header is removed whatever follows it |
| `Normalise.StripDataUriRemovesOnce` | app/api/analyze/route.ts:98 | the pattern is neither global nor repeated: of any two leading headers only the first is removed, and the second stays at the head |
| `Text.Trim` | app/api/analyze/route.ts:103 | `trim` returns an unpadded infix of the input surrounded only by JavaScript whitespace |
| `Text.TrimOfPadded` | app/api/analyze/route.ts:103 | independent characterisation: whitespace around an unpadded text is exactly what `trim` removes |
| `Text.TrimIdempotent` | app/api/analyze/route.ts:103 | trimming twice is trimming once |
| `Text.DeleteAll` | app/api/analyze/route.ts:103 | the global replace of a literal never lengthens the text |
| `Text.DeleteAllShortensIffPresent` | app/api/analyze/route.ts:103 | the global replace deletes something exactly when the literal occurs in the text |
| `Text.DeleteAllAbsent` | app/api/analyze/route.ts:103 | a global replace of an absent literal leaves the text unchanged |
| `Text.DeleteAllKeepsPrefix` | app/api/analyze/route.ts:103 | text before the first occurrence is kept verbatim by the global replace |
| `Prompt.VocabularyInBase` | app/api/analyze/route.ts:15-63 | each field's list is in the base text, it carries the field's heading, and every label of the field's vocabulary appears quoted inside that list |
| `Prompt.BaseHasList` | app/api/analyze/route.ts:15-63 | each of the seven rendered lists is part of the base text |
| `Prompt.Position` | app/api/analyze/route.ts:16-58 | every classification field has a place in the order the base text lists them: etiology, tissue, exudate, perilesional skin, infection, primary dressing, dressing goal |
| `Prompt.Slot` | app/api/analyze/route.ts:82-86 | a falsy value gives the fallback, a non-empty text is inserted as is, and only a throwing conversion fails |
| `Prompt.ReadContext` | app/api/analyze/route.ts:80-87 | each absent or falsy patient field takes its own fallback; a truthy one is its text conversion; reading fails exactly when some truthy field's conversion throws; with no patient record every field falls back |
| `Prompt.ReadContextOfTextFields` | app/api/analyze/route.ts:80-87 | non-empty text fields reach the context unchanged |
| `Prompt.ContextBlock` | app/api/analyze/route.ts:80-87 | the block is exactly the "CONTEXTO DEL PACIENTE:" heading, the five labelled lines in the order age, sex, vascular, cardiac, diabetic, and the closing indentation, each line starting with its line break and indentation; hence it opens with the heading, ends with the indentation, and holds each line and each pair of consecutive lines |
| `Prompt.FinalPrompt` | app/api/analyze/route.ts:80-90 | the prompt is built exactly when every context value converts to text, and a failure carries the conversion error |
| `Prompt.ContextAfter` | app/api/analyze/route.ts:90 | whatever text comes before the context block, all five labelled lines remain in the result |
| `Prompt.FinalPromptCarriesContext` | app/api/analyze/route.ts:80-90 | the patient's values reach the prompt: after the base text and its line break comes exactly the context block of the values read from the request, and each value is in the prompt on its labelled line |
| `Prompt.FinalPromptExtendsBase` | app/api/analyze/route.ts:90 | the base text followed by a line break is a prefix of every built prompt |
| `Prompt.FinalPromptOfUnknownPatient` | app/api/analyze/route.ts:80-90 | with no usable patient data the prompt is the base text plus the all-fallback context |
| `JsValues.Truthy` | app/api/analyze/route.ts:77 | a value is truthy exactly when it is not one of JavaScript's falsy values `undefined`, `null`, `false`, `0`, `""` |
| `JsValues.OptionalGet` | app/api/analyze/route.ts:82-86 | `?.` gives an object's own property when there is one and `undefined` otherwise, for every kind of value |
| `JsValues.StrictGet` | app/api/analyze/route.ts:138-144 | a plain property read throws exactly on `null` and `undefined`, and otherwise agrees with `?.` |
| `JsValues.ToText` | app/api/analyze/route.ts:82-86 | template conversion of every kind of value: a text is itself, an integer its decimal digits, booleans "true"/"false", `null` and `undefined` their names, a plain object "[object Object]", an array its elements joined; only an object or array can throw, an object exactly when it has its own `toString` |
| `JsValues.JoinElements` | app/api/analyze/route.ts:82-86 | an array converts to text exactly when every element does; the empty array gives the empty text, a one-element array its element's text, and a longer one its first element's text, a comma, and the rest joined the same way |
| `JsValues.Spread` | app/api/analyze/route.ts:164 | spreading copies an object's own properties; an array gives exactly one key per index, holding that element, and a text one key per index, holding that character as a text; `null`, `undefined`, booleans and numbers give nothing |
| `JsValues.DecimalRoundTrip` | app/api/analyze/route.ts:164 | an index key read back as a number gives the index, so spread keys of distinct indices differ |
| `JsValues.IndexEntries` | app/api/analyze/route.ts:164 | spreading an array gives exactly the index keys, each holding its element |
| `SheetLog.BuildRow` | app/api/analyze/route.ts:135-148 | twelve cells in column order: time, code, the seven reply fields in logged order, provenance, provider name, prompt version; a `null` reply throws |
| `SheetLog.RowIgnoresUnloggedKeys` | app/api/analyze/route.ts:138-144 | no reply key outside columns C to I affects the row |
| `SheetLog.RowOmitsRecommendations` | app/api/analyze/route.ts:121-148 | the care recommendations never reach the sheet |
| `SheetLog.ProviderName` | app/api/analyze/route.ts:146 | column K says "ChatGPT" exactly when the tag is the text "chatgpt" |
| `SheetLog.FailureStatus` | app/api/analyze/route.ts:160 | a failure status keeps the error message and can never equal "No configurado" or "Guardado OK" |
| `SheetLog.Configured` | app/api/analyze/route.ts:123 | logging is configured exactly when none of the three settings is unset or empty |
| `SheetLog.LogStep` | app/api/analyze/route.ts:122-162 | "No configurado" exactly when a setting is missing; a row is appended exactly when configured and the row builds; "Guardado OK" exactly when that append succeeds; otherwise "Fallo Excel: " followed by the message of the row read or of the append that failed |
| `Analyze.Classify` | app/api/analyze/route.ts:95-115 | at most one provider call, and none only for a Gemini request whose image is not text (which fails); the call carries the prompt unchanged and goes to Gemini exactly for the tag "gemini"; Gemini gets a suffix of the image as JPEG data, OpenAI the image as sent; the result is the call's failure or the parse of its reply; for Gemini that is the parse of the reply with its fences deleted and trimmed |
| `Analyze.ContentOrEmpty` | app/api/analyze/route.ts:114 | a missing or empty OpenAI reply is read as "{}", any other reply as itself |
| `Analyze.SuccessBody` | app/api/analyze/route.ts:164 | the answer holds the spread reply's keys plus `sheetStatus`, whose value replaces any the model sent |
| `Analyze.ClassifyAndLog` | app/api/analyze/route.ts:95-164 | 500 exactly when classification fails, carrying the provider's message, and with no append; otherwise 200 and the answer is the model's object spread with the log step's `sheetStatus`; the provider call comes first; at most two external calls |
| `Analyze.AppendedRowIsBuiltRow` | app/api/analyze/route.ts:123-157 | a row is appended exactly when the three settings are present, classification succeeded and the row builds, and the appended row is the twelve-column row built from the clock, the code, the reply and the tag |
| `Analyze.BuiltRowAppended` | app/api/analyze/route.ts:123-157 | with the sheet configured and the row built, the calls are the provider call followed by the append of that row |
| `Analyze.UnconfiguredSheetNeverAppended` | app/api/analyze/route.ts:122-124 | with a sheet setting missing or empty, no request ever appends a row |
| `Analyze.HandleShape` | app/api/analyze/route.ts:69-170 | status is 200, 400 or 500; 400 exactly for a falsy image; every non-200 answer holds only `error` and follows no append; a 200 holds `sheetStatus`; an unreadable body, a `null` or `undefined` body, or a prompt whose context conversion throws gives 500 "Error Interno: " followed by the message, with no external call |
| `Analyze.HandleReachesProvider` | app/api/analyze/route.ts:77-90 | with an image and a built prompt, the request goes on to the provider and the log |
| `Analyze.AnswerBeforeProvider` | app/api/analyze/route.ts:72-90 | an answer given before the provider step makes no call and does not depend on the environment |
| `Analyze.MissingImageRejected` | app/api/analyze/route.ts:77 | a falsy image gives 400 "Falta imagen" with no external call at all |
| `Analyze.ProviderFailureEndsRequest` | app/api/analyze/route.ts:116-119 | a provider or parse failure gives 500 with the provider's message, and no row is appended |
| `Analyze.PromptIndependentOfProvider` | app/api/analyze/route.ts:90-110 | two requests with the same image and patient data send the same prompt, built from the patient data alone, whatever their tags |
| `Analyze.FirstCallCarriesPrompt` | app/api/analyze/route.ts:96-110 | the first external call carries the prompt, and goes to Gemini exactly for the tag "gemini" |
| `Analyze.ResponsePassesReplyThrough` | app/api/analyze/route.ts:164 | the model's object reaches the answer unvalidated, with `sheetStatus` set from the log step |
| `Analyze.LogStepOnlySetsStatus` | app/api/analyze/route.ts:122-164 | changing the sheet settings, the append service or the clock changes only `sheetStatus` |
| `Analyze.LoggingNeverChangesOutcome` | app/api/analyze/route.ts:69-170 | for every request the log never changes the status code or any answer field but `sheetStatus` |
| `Analyze.EmptyContentParsedAsEmptyObject` | app/api/analyze/route.ts:114 | an OpenAI reply with no content is parsed as "{}" |
| `Analyze.EmptyOpenAiReplySucceeds` | app/api/analyze/route.ts:114-164 | an empty OpenAI reply yields 200 with `sheetStatus` as the only key |
| `Analyze.AppendedRowNamesProvider` | app/api/analyze/route.ts:146-155 | the only appended row follows the provider call and names the provider by the "chatgpt" test |
| `Analyze.UnknownTagLoggedAsGemini` | app/api/analyze/route.ts:96-146 | a tag that is neither "gemini" nor "chatgpt" is sent to OpenAI but logged as "Gemini" |
| `Analyze.FencedGeminiReplyClassifiedAsBare` | app/api/analyze/route.ts:103-104 | a fenced Gemini reply is classified exactly like the bare one |

## Left out

- The pages, components, layout and styling of the application: they are UI
  and not part of this model.
- The Gemini and OpenAI SDK calls, the Google Sheets client and `JSON.parse`
  are `Env` parameters. Their results are arbitrary `Ok`/`Err` values, and
  `JSON.parse` is not modelled beyond its outcome.
- Client construction is treated as never throwing. If the OpenAI or Gemini
  constructor (lines 74-75) threw, the request would end with 500 "Error
  Interno: …" before the image check. If the Google auth or sheets client
  (lines 125-132) threw, the status would be "Fallo Excel: …" with no append
  attempted. The model represents only a failing append, which is recorded
  as a `SheetAppend` call.
- The private-key unescaping at line 128 only feeds authentication, which is
  not modelled.
- The request JSON is a `Result<JsValue>`. A body that fails to parse takes
  the outer 500.
- `new Date().toLocaleString()` is the `timestamp` parameter.
- Numbers are integers: fractions, `NaN`, infinities and `-0` are not
  represented. Template conversion of numbers is therefore decimal integer
  text only.
- JsValues.ToText: prints every digit of an integer. JavaScript numbers are
  doubles, so an integer above 2^53 has already been rounded by `JSON.parse`,
  and one of 10^21 or more prints in exponent form ("1e+21").
- Strings are sequences of characters, not UTF-16 code units. Spreading a
  string gives one key per character.
- Property reads see own properties only. Inherited ones such as `toString`
  on a plain object are not modelled, except where a template conversion
  throws.
- The error messages produced by the JavaScript engine ("Cannot read
  properties of null …", "image.replace is not a function", "Cannot
  destructure …", "Cannot convert object to primitive value") follow V8's
  wording. Other engines word them differently.
- The JSON text of the response (key order, serialisation) is not modelled,
  only the object.
- `console.error` logging is not modelled.
- The model names and request options ("gemini-2.5-flash", "gpt-4o",
  `response_format`, the sheet range and insert options) are not modelled.
  They are constants passed to services the model does not see.

=== FILE: analyze.dfy ===
/** `POST /api/analyze`: validate the body, build the prompt, ask one of the
    two vision models, log best-effort, answer. Every external collaborator is
    a field of `Env`, and the handler returns, besides its HTTP response, the
    external calls it made, in order. */
module Analyze {
  import opened Results
  import opened JsValues
  import opened Normalise
  import opened Prompt
  import opened SheetLog

  /** One call to an external service. */
  datatype Call =
    | GeminiGenerate(prompt: string, data: string, mimeType: string)
    | OpenAiCreate(prompt: string, imageUrl: JsValue)
    | SheetAppend(row: seq<JsValue>)

  /** The world the handler runs in. `gemini` is `generateContent` followed
      by `response.text()`; `openai` is the chat completion reduced to the
      first choice's `message.content` (`None` for `null`); `parse` is
      `JSON.parse`; `append` is the spreadsheet append; `timestamp` is
      `new Date().toLocaleString()`. A failure carries the thrown error's
      message. */
  datatype Env = Env(
    gemini: (string, string) -> Result<string>,
    openai: (string, JsValue) -> Result<Option<string>>,
    parse: string -> Result<JsValue>,
    sheet: SheetConfig,
    append: seq<JsValue> -> Result<()>,
    timestamp: string)

  datatype Response = Response(status: int, body: JsValue)

  datatype Handled = Handled(response: Response, calls: seq<Call>)

  const GeminiTag: JsValue := Str("gemini")
  const JpegMime: string := "image/jpeg"
  const MissingImage: string := "Falta imagen"
  const AiErrorPrefix: string := "Error en la IA: "
  const InternalErrorPrefix: string := "Error Interno: "
  /** What `image.replace(...)` throws when the image is not a string. */
  const ReplaceNotAFunction: string := "image.replace is not a function"
  /** What the content fallback `|| '{}'` substitutes for a missing reply. */
  const EmptyObjectText: string := "{}"

  function ErrorBody(message: string): JsValue {
    Obj(map["error" := Str(message)])
  }

  /** What destructuring `{ image, ... }` throws on a `null` body. */
  function DestructureMessage(body: JsValue): string {
    "Cannot destructure property 'image' of '(intermediate value)' as it is "
      + (if body.Null? then "null." else "undefined.")
  }

  /** The provider's answer and the calls made to get it. */
  datatype Classified = Classified(result: Result<JsValue>, calls: seq<Call>)

  /** `content || '{}'`. */
  function ContentOrEmpty(content: Option<string>): (text: string)
    ensures content.None? || content.value == "" ==> text == EmptyObjectText
    ensures content.Some? && content.value != "" ==> text == content.value
  {
    if content.Some? && content.value != "" then content.value else EmptyObjectText
  }

  /** Step 1 of the handler. The tag selects Gemini only when it is exactly
      the text "gemini"; every other tag, including none, selects OpenAI.
      Gemini gets the image without its data-URI header and its reply without
      code fences; OpenAI gets the image as sent. Either way the prompt is
      passed through untouched. */
  function Classify(prompt: string, image: JsValue, modelId: JsValue, env: Env): (c: Classified)
    ensures |c.calls| <= 1
    ensures c.calls == [] <==> modelId == GeminiTag && !image.Str?
    ensures c.calls == [] ==> c.result == Err(ReplaceNotAFunction)
    ensures c.calls != [] ==>
      && !c.calls[0].SheetAppend? && c.calls[0].prompt == prompt
      && (c.calls[0].GeminiGenerate? <==> modelId == GeminiTag)
    ensures c.calls != [] && c.calls[0].GeminiGenerate? ==>
      && image.Str? && c.calls[0].mimeType == JpegMime
      && |c.calls[0].data| <= |image.s| && c.calls[0].data == image.s[|image.s| - |c.calls[0].data|..]
      && c.calls[0].data == StripDataUri(image.s)
    ensures c.calls != [] && c.calls[0].OpenAiCreate? ==> c.calls[0].imageUrl == image
    /* The result is the answer to the call just recorded: its failure, or
       the parse of its text (for Gemini, once the fences are cleaned off). */
    ensures c.calls != [] && c.calls[0].GeminiGenerate? ==>
      var reply := env.gemini(c.calls[0].prompt, c.calls[0].data);
      && (reply.Err? ==> c.result == Err(reply.message))
      && (reply.Ok? ==> c.result == env.parse(StripFences(reply.value)))
    ensures c.calls != [] && c.calls[0].OpenAiCreate? ==>
      var reply := env.openai(c.calls[0].prompt, c.calls[0].imageUrl);
      && (reply.Err? ==> c.result == Err(reply.message))
      && (reply.Ok? ==> c.result == env.parse(ContentOrEmpty(reply.value)))
  {
    if modelId == GeminiTag then
      if !image.Str? then Classified(Err(ReplaceNotAFunction), [])
      else
        var data := StripDataUri(image.s);
        var calls := [GeminiGenerate(prompt, data, JpegMime)];
        match env.gemini(prompt, data)
        case Err(e) => Classified(Err(e), calls)
        case Ok(text) => Classified(env.parse(StripFences(text)), calls)
    else
      var calls := [OpenAiCreate(prompt, image)];
      match env.openai(prompt, image)
      case Err(e) => Classified(Err(e), calls)
      case Ok(content) => Classified(env.parse(ContentOrEmpty(content)), calls)
  }

  predicate NoAppend(calls: seq<Call>) {
    forall i :: 0 <= i < |calls| ==> !calls[i].SheetAppend?
  }

  /** The success body `{ ...result, sheetStatus }`. */
  function SuccessBody(result: JsValue, status: string): (body: JsValue)
    ensures body.Obj? && "sheetStatus" in body.props && body.props["sheetStatus"] == Str(status)
    ensures body.props.Keys == Spread(result).Keys + {"sheetStatus"}
    ensures forall k :: k in Spread(result) && k != "sheetStatus" ==> body.props[k] == Spread(result)[k]
  {
    Obj(Spread(result)["sheetStatus" := Str(status)])
  }

  /** Steps 1 and 2, once the image is known to be there and the prompt is
      built: a provider failure ends the request with 500 before logging;
      otherwise the log step runs and the answer is 200 whatever it reports. */
  function ClassifyAndLog(prompt: string, image: JsValue, modelId: JsValue, identificationCode: JsValue, env: Env): (h: Handled)
    ensures var c := Classify(prompt, image, modelId, env);
      && (h.response.status == 500 <==> c.result.Err?)
      && (c.result.Err? ==> h.response.body == ErrorBody(AiErrorPrefix + c.result.message))
      && |c.calls| <= |h.calls| && h.calls[..|c.calls|] == c.calls
    /* A successful answer is the reply with the log step's status. */
    ensures var c := Classify(prompt, image, modelId, env);
      c.result.Ok? ==>
        h.response.body == SuccessBody(c.result.value,
          LogStep(env.sheet, env.timestamp, identificationCode, c.result.value, modelId, env.append).status)
    ensures h.response.status == 200 || h.response.status == 500
    ensures h.response.status == 500 ==> NoAppend(h.calls) && h.response.body.Obj? && h.response.body.props.Keys == {"error"}
    ensures h.response.status == 200 ==> h.response.body.Obj? && "sheetStatus" in h.response.body.props
    ensures |h.calls| <= 2
  {
    var c := Classify(prompt, image, modelId, env);
    match c.result
    case Err(e) => Handled(Response(500, ErrorBody(AiErrorPrefix + e)), c.calls)
    case Ok(result) =>
      var log := LogStep(env.sheet, env.timestamp, identificationCode, result, modelId, env.append);
      var calls := c.calls + (if log.appended.Some? then [SheetAppend(log.appended.value)] else []);
      Handled(Response(200, SuccessBody(result, log.status)), calls)
  }

  /** The handler. `body` is the outcome of `request.json()`. */
  function Handle(body: Result<JsValue>, env: Env): Handled {
    match body
    case Err(e) => Handled(Response(500, ErrorBody(InternalErrorPrefix + e)), [])
    case Ok(b) =>
      if b.Null? || b.Undefined? then
        Handled(Response(500, ErrorBody(InternalErrorPrefix + DestructureMessage(b))), [])
      else if !Truthy(OptionalGet(b, "image")) then
        Handled(Response(400, ErrorBody(MissingImage)), [])
      else
        match FinalPrompt(OptionalGet(b, "patientData"))
        case Err(e) => Handled(Response(500, ErrorBody(InternalErrorPrefix + e)), [])
        case Ok(prompt) =>
          ClassifyAndLog(prompt, OptionalGet(b, "image"), OptionalGet(b, "modelId"), OptionalGet(b, "identificationCode"), env)
  }

  /** Whatever the request, an answer other than 200 carries only an error
      message and follows no log row; a 200 carries `sheetStatus`; and at
      most one provider call and one append are made. The outer `catch`
      answers an unreadable or missing body, and a context that cannot be
      converted, with "Error Interno: " and the message. */
  lemma HandleShape(body: Result<JsValue>, env: Env)
    ensures var h := Handle(body, env);
      && (h.response.status == 200 || h.response.status == 400 || h.response.status == 500)
      && (h.response.status == 400 <==>
            body.Ok? && !body.value.Null? && !body.value.Undefined? && !Truthy(OptionalGet(body.value, "image")))
      && (h.response.status != 200 ==> NoAppend(h.calls))
      && (h.response.status != 200 ==> h.response.body.Obj? && h.response.body.props.Keys == {"error"})
      && (h.response.status == 200 ==> h.response.body.Obj? && "sheetStatus" in h.response.body.props)
      && |h.calls| <= 2
    ensures body.Err? ==> Handle(body, env) == Handled(Response(500, ErrorBody(InternalErrorPrefix + body.message)), [])
    ensures body.Ok? && (body.value.Null? || body.value.Undefined?) ==>
      Handle(body, env) == Handled(Response(500, ErrorBody(InternalErrorPrefix + DestructureMessage(body.value))), [])
    ensures body.Ok? && !body.value.Null? && !body.value.Undefined? && Truthy(OptionalGet(body.value, "image"))
            && FinalPrompt(OptionalGet(body.value, "patientData")).Err? ==>
      Handle(body, env)
      == Handled(Response(500, ErrorBody(InternalErrorPrefix + FinalPrompt(OptionalGet(body.value, "patientData")).message)), [])
  {
    if body.Ok? && !body.value.Null? && !body.value.Undefined? && Truthy(OptionalGet(body.value, "image"))
       && FinalPrompt(OptionalGet(body.value, "patientData")).Ok?
    {
      HandleReachesProvider(body.value, env);
    } else {
      AnswerBeforeProvider(body, env, env);
    }
  }

  /** A request with an image whose prompt could be built goes on to the
      provider and the log. */
  lemma HandleReachesProvider(b: JsValue, env: Env)
    requires !b.Null? && !b.Undefined? && Truthy(OptionalGet(b, "image"))
    requires FinalPrompt(OptionalGet(b, "patientData")).Ok?
    ensures Handle(Ok(b), env)
         == ClassifyAndLog(FinalPrompt(OptionalGet(b, "patientData")).value, OptionalGet(b, "image"),
                           OptionalGet(b, "modelId"), OptionalGet(b, "identificationCode"), env)
  {
  }

  /** A request without a usable image is refused before anything else
      happens: no prompt, no provider call, no log row. */
  lemma MissingImageRejected(b: JsValue, env: Env)
    requires !b.Null? && !b.Undefined? && !Truthy(OptionalGet(b, "image"))
    ensures Handle(Ok(b), env) == Handled(Response(400, ErrorBody(MissingImage)), [])
  {
  }

  /** A provider failure, whether thrown by the call or by `JSON.parse`, is a
      500 whose message carries the provider's, and nothing is logged. */
  lemma ProviderFailureEndsRequest(b: JsValue, env: Env)
    requires !b.Null? && !b.Undefined? && Truthy(OptionalGet(b, "image"))
    requires FinalPrompt(OptionalGet(b, "patientData")).Ok?
    requires Classify(FinalPrompt(OptionalGet(b, "patientData")).value, OptionalGet(b, "image"), OptionalGet(b, "modelId"), env).result.Err?
    ensures var e := Classify(FinalPrompt(OptionalGet(b, "patientData")).value, OptionalGet(b, "image"), OptionalGet(b, "modelId"), env).result.message;
      Handle(Ok(b), env).response == Response(500, ErrorBody(AiErrorPrefix + e))
    ensures NoAppend(Handle(Ok(b), env).calls) && |Handle(Ok(b), env).calls| <= 1
  {
    HandleReachesProvider(b, env);
  }

  /** The prompt is a function of the patient data alone: two requests
      that agree on the image and the patient data give their first
      provider call the same prompt, whichever tags they carry. */
  lemma PromptIndependentOfProvider(b1: JsValue, b2: JsValue, env: Env)
    requires !b1.Null? && !b1.Undefined? && OptionalGet(b1, "image").Str? && OptionalGet(b1, "image").s != ""
    requires !b2.Null? && !b2.Undefined?
    requires OptionalGet(b1, "image") == OptionalGet(b2, "image")
    requires OptionalGet(b1, "patientData") == OptionalGet(b2, "patientData")
    requires FinalPrompt(OptionalGet(b1, "patientData")).Ok?
    ensures var h1 := Handle(Ok(b1), env);
      var h2 := Handle(Ok(b2), env);
      && |h1.calls| > 0 && |h2.calls| > 0
      && !h1.calls[0].SheetAppend? && !h2.calls[0].SheetAppend?
      && h1.calls[0].prompt == h2.calls[0].prompt == FinalPrompt(OptionalGet(b1, "patientData")).value
  {
    var prompt := FinalPrompt(OptionalGet(b1, "patientData")).value;
    var image := OptionalGet(b1, "image");
    assert Truthy(image);
    HandleReachesProvider(b1, env);
    HandleReachesProvider(b2, env);
    FirstCallCarriesPrompt(prompt, image, OptionalGet(b1, "modelId"), OptionalGet(b1, "identificationCode"), env);
    FirstCallCarriesPrompt(prompt, image, OptionalGet(b2, "modelId"), OptionalGet(b2, "identificationCode"), env);
  }

  /** Whichever provider is called first is given the prompt unchanged. */
  lemma FirstCallCarriesPrompt(prompt: string, image: JsValue, modelId: JsValue, code: JsValue, env: Env)
    requires image.Str? || modelId != GeminiTag
    ensures var h := ClassifyAndLog(prompt, image, modelId, code, env);
      && |h.calls| > 0 && !h.calls[0].SheetAppend? && h.calls[0].prompt == prompt
      && (h.calls[0].GeminiGenerate? <==> modelId == GeminiTag)
      && (h.calls[0].OpenAiCreate? <==> modelId != GeminiTag)
  {
  }

  /** The body of a successful answer is the model's object passed through
      unvalidated, with `sheetStatus` added last: it replaces a `sheetStatus`
      the model may have sent and leaves every other key alone. */
  lemma ResponsePassesReplyThrough(b: JsValue, env: Env, reply: map<string, JsValue>)
    requires !b.Null? && !b.Undefined? && Truthy(OptionalGet(b, "image"))
    requires FinalPrompt(OptionalGet(b, "patientData")).Ok?
    requires Classify(FinalPrompt(OptionalGet(b, "patientData")).value, OptionalGet(b, "image"), OptionalGet(b, "modelId"), env).result == Ok(Obj(reply))
    ensures var r := Handle(Ok(b), env).response;
      && r.status == 200
      && r.body.props.Keys == reply.Keys + {"sheetStatus"}
      && (forall k :: k in reply && k != "sheetStatus" ==> r.body.props[k] == reply[k])
      && r.body.props["sheetStatus"]
         == Str(LogStep(env.sheet, env.timestamp, OptionalGet(b, "identificationCode"), Obj(reply), OptionalGet(b, "modelId"), env.append).status)
  {
    HandleReachesProvider(b, env);
  }

  /** `{ ...result, sheetStatus }` differs from the spread reply only in
      `sheetStatus`. */
  lemma SuccessBodyOnlyAddsStatus(result: JsValue, status: string)
    ensures SuccessBody(result, status).props - {"sheetStatus"} == Spread(result) - {"sheetStatus"}
  {
  }

  /** The part of a success body the log step cannot touch. */
  lemma LogStepOnlySetsStatus(prompt: string, image: JsValue, modelId: JsValue, code: JsValue, env: Env,
                              sheet: SheetConfig, append: seq<JsValue> -> Result<()>, timestamp: string)
    ensures var h1 := ClassifyAndLog(prompt, image, modelId, code, env);
      var h2 := ClassifyAndLog(prompt, image, modelId, code, env.(sheet := sheet, append := append, timestamp := timestamp));
      && h1.response.status == h2.response.status
      && (h1.response.status != 200 ==> h1 == h2)
      && (h1.response.status == 200 ==>
            && h1.response.body.Obj? && h2.response.body.Obj?
            && h1.response.body.props - {"sheetStatus"} == h2.response.body.props - {"sheetStatus"})
  {
    var env2 := env.(sheet := sheet, append := append, timestamp := timestamp);
    var c1 := Classify(prompt, image, modelId, env);
    var c2 := Classify(prompt, image, modelId, env2);
    assert c1 == c2;
    if c1.result.Ok? {
      var r := c1.result.value;
      SuccessBodyOnlyAddsStatus(r, LogStep(env.sheet, env.timestamp, code, r, modelId, env.append).status);
      SuccessBodyOnlyAddsStatus(r, LogStep(sheet, timestamp, code, r, modelId, append).status);
    }
  }

  /** Logging is advisory: whatever the sheet settings, the append service
      and the clock do, the status code and every field of the body other
      than `sheetStatus` stay the same. */
  lemma LoggingNeverChangesOutcome(body: Result<JsValue>, env: Env, sheet: SheetConfig,
                                   append: seq<JsValue> -> Result<()>, timestamp: string)
    ensures var h1 := Handle(body, env);
      var h2 := Handle(body, env.(sheet := sheet, append := append, timestamp := timestamp));
      && h1.response.status == h2.response.status
      && (h1.response.status != 200 ==> h1 == h2)
      && (h1.response.status == 200 ==>
            && h1.response.body.Obj? && h2.response.body.Obj?
            && h1.response.body.props - {"sheetStatus"} == h2.response.body.props - {"sheetStatus"})
  {
    var env2 := env.(sheet := sheet, append := append, timestamp := timestamp);
    HandleShape(body, env);
    HandleShape(body, env2);
    if body.Ok? && !body.value.Null? && !body.value.Undefined? && Truthy(OptionalGet(body.value, "image"))
       && FinalPrompt(OptionalGet(body.value, "patientData")).Ok?
    {
      var b := body.value;
      var p := FinalPrompt(OptionalGet(b, "patientData"));
      HandleReachesProvider(b, env);
      HandleReachesProvider(b, env2);
      LogStepOnlySetsStatus(p.value, OptionalGet(b, "image"), OptionalGet(b, "modelId"), OptionalGet(b, "identificationCode"),
                            env, sheet, append, timestamp);
    } else {
      AnswerBeforeProvider(body, env, env2);
    }
  }

  /** Until the prompt is built, nothing the handler does depends on its
      environment. */
  lemma AnswerBeforeProvider(body: Result<JsValue>, env1: Env, env2: Env)
    requires !(body.Ok? && !body.value.Null? && !body.value.Undefined? && Truthy(OptionalGet(body.value, "image"))
               && FinalPrompt(OptionalGet(body.value, "patientData")).Ok?)
    ensures Handle(body, env1) == Handle(body, env2)
    ensures var h := Handle(body, env1);
      && (h.response.status == 400 || h.response.status == 500)
      && h.calls == [] && h.response.body.Obj? && h.response.body.props.Keys == {"error"}
  {
  }

  /** An OpenAI reply with no content is read as the text "{}". */
  lemma EmptyContentParsedAsEmptyObject(prompt: string, image: JsValue, modelId: JsValue, env: Env)
    requires modelId != GeminiTag
    requires env.openai(prompt, image) == Ok(None) || env.openai(prompt, image) == Ok(Some(""))
    ensures Classify(prompt, image, modelId, env).result == env.parse(EmptyObjectText)
  {
  }

  lemma EmptyReplyAnsweredWithStatusOnly(prompt: string, image: JsValue, modelId: JsValue, code: JsValue, env: Env)
    requires Classify(prompt, image, modelId, env).result == Ok(Obj(map[]))
    ensures var r := ClassifyAndLog(prompt, image, modelId, code, env).response;
      r.status == 200 && r.body.props.Keys == {"sheetStatus"}
  {
  }

  /** A missing or empty OpenAI reply is parsed as "{}": with `JSON.parse`
      reading that as the empty object, the request succeeds with a body
      holding `sheetStatus` alone instead of failing. */
  lemma EmptyOpenAiReplySucceeds(b: JsValue, env: Env)
    requires !b.Null? && !b.Undefined? && Truthy(OptionalGet(b, "image")) && OptionalGet(b, "modelId") != GeminiTag
    requires FinalPrompt(OptionalGet(b, "patientData")).Ok?
    requires var content := env.openai(FinalPrompt(OptionalGet(b, "patientData")).value, OptionalGet(b, "image"));
      content == Ok(None) || content == Ok(Some(""))
    requires env.parse(EmptyObjectText) == Ok(Obj(map[]))
    ensures var r := Handle(Ok(b), env).response;
      r.status == 200 && r.body.props.Keys == {"sheetStatus"}
  {
    var prompt := FinalPrompt(OptionalGet(b, "patientData")).value;
    HandleReachesProvider(b, env);
    EmptyContentParsedAsEmptyObject(prompt, OptionalGet(b, "image"), OptionalGet(b, "modelId"), env);
    EmptyReplyAnsweredWithStatusOnly(prompt, OptionalGet(b, "image"), OptionalGet(b, "modelId"), OptionalGet(b, "identificationCode"), env);
  }

  /** Every row appended after an OpenAI call names "ChatGPT" only when the
      tag was exactly "chatgpt". */
  lemma AppendedRowNamesProvider(prompt: string, image: JsValue, modelId: JsValue, code: JsValue, env: Env)
    ensures var h := ClassifyAndLog(prompt, image, modelId, code, env);
      forall i :: 0 <= i < |h.calls| && h.calls[i].SheetAppend? ==>
        i == 1 && |h.calls[i].row| == RowWidth && h.calls[i].row[10] == Str(ProviderName(modelId))
  {
    var h := ClassifyAndLog(prompt, image, modelId, code, env);
    var c := Classify(prompt, image, modelId, env);
    AppendedRowIsBuiltRow(prompt, image, modelId, code, env);
    forall i | 0 <= i < |h.calls| && h.calls[i].SheetAppend?
      ensures i == 1 && |h.calls[i].row| == RowWidth && h.calls[i].row[10] == Str(ProviderName(modelId))
    {
      assert Ok(h.calls[i].row) == BuildRow(env.timestamp, code, c.result.value, modelId);
      assert |c.calls| == 1 && h.calls[0] == c.calls[0];
      assert |h.calls| <= 2;
    }
  }

  /** The only row ever appended is the one built from the model's reply,
      only when logging is configured; and when logging is configured and
      that row builds, it is appended. */
  lemma AppendedRowIsBuiltRow(prompt: string, image: JsValue, modelId: JsValue, code: JsValue, env: Env)
    ensures var h := ClassifyAndLog(prompt, image, modelId, code, env);
      var c := Classify(prompt, image, modelId, env);
      forall i :: 0 <= i < |h.calls| && h.calls[i].SheetAppend? ==>
        && Configured(env.sheet) && c.result.Ok?
        && Ok(h.calls[i].row) == BuildRow(env.timestamp, code, c.result.value, modelId)
    ensures var h := ClassifyAndLog(prompt, image, modelId, code, env);
      var c := Classify(prompt, image, modelId, env);
      Configured(env.sheet) && c.result.Ok? && BuildRow(env.timestamp, code, c.result.value, modelId).Ok? ==>
        SheetAppend(BuildRow(env.timestamp, code, c.result.value, modelId).value) in h.calls
  {
    var h := ClassifyAndLog(prompt, image, modelId, code, env);
    var c := Classify(prompt, image, modelId, env);
    forall i | 0 <= i < |h.calls| && h.calls[i].SheetAppend?
      ensures Configured(env.sheet) && c.result.Ok?
      ensures Ok(h.calls[i].row) == BuildRow(env.timestamp, code, c.result.value, modelId)
    {
      assert c.result.Ok?;
      var log := LogStep(env.sheet, env.timestamp, code, c.result.value, modelId, env.append);
      assert h.calls == c.calls + [SheetAppend(log.appended.value)];
    }
    if Configured(env.sheet) && c.result.Ok? && BuildRow(env.timestamp, code, c.result.value, modelId).Ok? {
      BuiltRowAppended(prompt, image, modelId, code, env);
    }
  }

  /** A configured sheet receives the row built from a successful reply. */
  lemma BuiltRowAppended(prompt: string, image: JsValue, modelId: JsValue, code: JsValue, env: Env)
    requires Configured(env.sheet)
    requires Classify(prompt, image, modelId, env).result.Ok?
    requires BuildRow(env.timestamp, code, Classify(prompt, image, modelId, env).result.value, modelId).Ok?
    ensures var row := BuildRow(env.timestamp, code, Classify(prompt, image, modelId, env).result.value, modelId).value;
      ClassifyAndLog(prompt, image, modelId, code, env).calls == Classify(prompt, image, modelId, env).calls + [SheetAppend(row)]
  {
    var c := Classify(prompt, image, modelId, env);
    var log := LogStep(env.sheet, env.timestamp, code, c.result.value, modelId, env.append);
    assert log.appended.Some?;
  }

  /** Without the three sheet settings no request ever reaches the sheet. */
  lemma UnconfiguredSheetNeverAppended(body: Result<JsValue>, env: Env)
    requires !Configured(env.sheet)
    ensures NoAppend(Handle(body, env).calls)
  {
    if body.Ok? && !body.value.Null? && !body.value.Undefined? && Truthy(OptionalGet(body.value, "image"))
       && FinalPrompt(OptionalGet(body.value, "patientData")).Ok?
    {
      var b := body.value;
      HandleReachesProvider(b, env);
      AppendedRowIsBuiltRow(FinalPrompt(OptionalGet(b, "patientData")).value, OptionalGet(b, "image"),
                            OptionalGet(b, "modelId"), OptionalGet(b, "identificationCode"), env);
    } else {
      AnswerBeforeProvider(body, env, env);
    }
  }

  /** The provider is chosen by `modelId === 'gemini'` but logged by
      `modelId === 'chatgpt'`: any other tag, or none, is sent to OpenAI and
      recorded as "Gemini". */
  lemma UnknownTagLoggedAsGemini(prompt: string, image: JsValue, modelId: JsValue, code: JsValue, env: Env)
    requires modelId != Str("gemini") && modelId != Str("chatgpt")
    ensures var h := ClassifyAndLog(prompt, image, modelId, code, env);
      && |h.calls| > 0 && h.calls[0].OpenAiCreate?
      && (forall i :: 0 <= i < |h.calls| && h.calls[i].SheetAppend? ==>
            |h.calls[i].row| == RowWidth && h.calls[i].row[10] == Str("Gemini"))
  {
    FirstCallCarriesPrompt(prompt, image, modelId, code, env);
    assert ProviderName(modelId) == "Gemini";
    AppendedRowNamesProvider(prompt, image, modelId, code, env);
  }

  /** A Gemini reply wrapped in a "```json" block gives the same answer as the
      bare reply: the request is classified identically either way. */
  lemma FencedGeminiReplyClassifiedAsBare(prompt: string, image: string, env: Env, reply: string)
    requires FenceFree(reply)
    requires env.gemini(prompt, StripDataUri(image)) == Ok(JsonFence + "\n" + reply + "\n" + Fence)
    ensures Classify(prompt, Str(image), GeminiTag, env).result
         == Classify(prompt, Str(image), GeminiTag, env.(gemini := (p, d) => Ok(reply))).result
  {
    StripFencesOfWrapped(reply);
  }
}

=== FILE: js_value.dfy ===
/** JavaScript values as the request handler sees them: anything `JSON.parse`
    can produce, plus `undefined` for a property that is not there. */
module JsValues {
  import opened Results

  /** JSON numbers are modelled by integers: the handler never does arithmetic
      on them and only ever converts them to text. */
  datatype JsValue =
    | Undefined
    | Null
    | Bool(b: bool)
    | Num(n: int)
    | Str(s: string)
    | Arr(elems: seq<JsValue>)
    | Obj(props: map<string, JsValue>)

  /** The falsy values of JavaScript that a JSON value can be (`NaN` and
      `-0` are not representable here). */
  const FalsyValues: set<JsValue> := {Undefined, Null, Bool(false), Num(0), Str("")}

  /** JavaScript truthiness: the test behind `!image` and `x || fallback`. */
  predicate Truthy(v: JsValue)
    ensures Truthy(v) <==> v !in FalsyValues
  {
    match v
    case Undefined => false
    case Null => false
    case Bool(b) => b
    case Num(n) => n != 0
    case Str(s) => s != ""
    case Arr(_) => true
    case Obj(_) => true
  }

  /** `v?.key` for one of the handler's own property names, none of which is
      inherited by strings, arrays or plain objects: an own property of an
      object, and `undefined` for every other value. */
  function OptionalGet(v: JsValue, key: string): (r: JsValue)
    ensures r != Undefined ==> v.Obj? && key in v.props && v.props[key] == r
    ensures v.Obj? && key in v.props ==> r == v.props[key]
  {
    if v.Obj? && key in v.props then v.props[key] else Undefined
  }

  /** `v.key` without optional chaining: reading a property of `null` or
      `undefined` throws a TypeError. */
  function StrictGet(v: JsValue, key: string): (r: Result<JsValue>)
    ensures r.Err? <==> v.Null? || v.Undefined?
    ensures r.Ok? ==> r.value == OptionalGet(v, key)
  {
    if v.Null? then Err("Cannot read properties of null (reading '" + key + "')")
    else if v.Undefined? then Err("Cannot read properties of undefined (reading '" + key + "')")
    else Ok(OptionalGet(v, key))
  }

  /** The TypeError raised when an object's own `toString` property shadows
      the inherited method: a JSON value is never callable, and the inherited
      `valueOf` returns the object itself, so no primitive is found. */
  const NoPrimitiveMessage: string := "Cannot convert object to primitive value"

  predicate IsDigit(c: char) {
    '0' <= c <= '9'
  }

  function DigitChar(d: nat): (c: char)
    requires d < 10
    ensures IsDigit(c)
  {
    "0123456789"[d]
  }

  function DigitValue(c: char): (d: nat)
    requires IsDigit(c)
    ensures d < 10
  {
    (c as int - '0' as int) as nat
  }

  /** Decimal text of a natural number, as `String(n)` writes it. */
  function NatToDecimal(n: nat): (r: string)
    ensures |r| > 0
    ensures forall i :: 0 <= i < |r| ==> IsDigit(r[i])
    ensures |r| > 1 ==> r[0] != '0'
    decreases n
  {
    if n < 10 then [DigitChar(n)] else NatToDecimal(n / 10) + [DigitChar(n % 10)]
  }

  /** Reading a string of digits back as a number: the inverse of `NatToDecimal`. */
  function DecimalValue(s: string): nat
    requires forall i :: 0 <= i < |s| ==> IsDigit(s[i])
  {
    if s == [] then 0 else 10 * DecimalValue(s[..|s| - 1]) + DigitValue(s[|s| - 1])
  }

  lemma {:induction false} DecimalRoundTrip(n: nat)
    ensures DecimalValue(NatToDecimal(n)) == n
    decreases n
  {
    var s := NatToDecimal(n);
    if n < 10 {
      assert s == [DigitChar(n)];
      assert s[..0] == [];
    } else {
      DecimalRoundTrip(n / 10);
      assert s[..|s| - 1] == NatToDecimal(n / 10);
      assert s[|s| - 1] == DigitChar(n % 10);
    }
  }

  lemma NatToDecimalInjective(m: nat, n: nat)
    requires NatToDecimal(m) == NatToDecimal(n)
    ensures m == n
  {
    DecimalRoundTrip(m);
    DecimalRoundTrip(n);
  }

  /** `String(n)` for an integer. */
  function IntToDecimal(n: int): (r: string)
    ensures |r| > 0
    ensures n >= 0 ==> r == NatToDecimal(n)
    ensures n < 0 ==> r == "-" + NatToDecimal(-n)
  {
    if n < 0 then "-" + NatToDecimal(-n) else NatToDecimal(n)
  }

  /** The text a template literal `${v}` inserts for `v` (the ToString
      conversion); fails only on an object whose own `toString` property
      shadows the inherited method, directly or inside an array. */
  function ToText(v: JsValue): (r: Result<string>)
    ensures v.Str? ==> r == Ok(v.s)
    ensures v.Num? ==> r == Ok(IntToDecimal(v.n))
    ensures v.Bool? ==> r == Ok(if v.b then "true" else "false")
    ensures v.Null? ==> r == Ok("null")
    ensures v.Undefined? ==> r == Ok("undefined")
    ensures v.Obj? && "toString" !in v.props ==> r == Ok("[object Object]")
    ensures v.Arr? ==> r == JoinElements(v.elems)
    ensures r.Err? ==> r.message == NoPrimitiveMessage
    ensures r.Err? ==> v.Obj? || v.Arr?
    ensures v.Obj? ==> (r.Err? <==> "toString" in v.props)
    ensures r.Ok? && r.value == "" ==> v.Str? || v.Arr?
    decreases v, 1
  {
    match v
    case Undefined => Ok("undefined")
    case Null => Ok("null")
    case Bool(b) => Ok(if b then "true" else "false")
    case Num(n) => Ok(IntToDecimal(n))
    case Str(s) => Ok(s)
    case Arr(xs) => JoinElements(xs)
    case Obj(m) => if "toString" in m then Err(NoPrimitiveMessage) else Ok("[object Object]")
  }

  /** `Array.prototype.join(",")`: `null` and `undefined` elements contribute
      the empty text. */
  function JoinElements(xs: seq<JsValue>): (r: Result<string>)
    ensures r.Err? ==> r.message == NoPrimitiveMessage
    ensures r.Err? <==> exists i :: 0 <= i < |xs| && ElementText(xs[i]).Err?
    ensures xs == [] ==> r == Ok("")
    ensures |xs| == 1 ==> r == ElementText(xs[0])
    ensures |xs| > 1 && r.Ok? ==>
      && ElementText(xs[0]).Ok? && JoinElements(xs[1..]).Ok?
      && r.value == ElementText(xs[0]).value + "," + JoinElements(xs[1..]).value
    decreases xs, 0
  {
    if xs == [] then Ok("")
    else
      var head :- ElementText(xs[0]);
      if |xs| == 1 then Ok(head)
      else
        var tail :- JoinElements(xs[1..]);
        Ok(head + "," + tail)
  }

  function ElementText(x: JsValue): (r: Result<string>)
    ensures r.Err? ==> r.message == NoPrimitiveMessage
    decreases x, 2
  {
    if x.Null? || x.Undefined? then Ok("") else ToText(x)
  }

  /** The keys an array of `n` elements spreads into. */
  function IndexKeys(n: nat): set<string> {
    set i | 0 <= i < n :: NatToDecimal(i)
  }

  lemma IndexKeysStep(n: nat)
    ensures IndexKeys(n + 1) == IndexKeys(n) + {NatToDecimal(n)}
    ensures NatToDecimal(n) !in IndexKeys(n)
  {
    assert NatToDecimal(n) in IndexKeys(n + 1);
    if NatToDecimal(n) in IndexKeys(n) {
      var i :| 0 <= i < n && NatToDecimal(i) == NatToDecimal(n);
      NatToDecimalInjective(i, n);
    }
  }

  lemma {:induction false} IndexKeysCount(n: nat)
    ensures |IndexKeys(n)| == n
  {
    if n > 0 {
      IndexKeysCount(n - 1);
      IndexKeysStep(n - 1);
    } else {
      assert IndexKeys(0) == {};
    }
  }

  /** The own enumerable properties `{...xs}` copies from an array (or from the
      characters of a string): one per index, keyed by the index's decimal text. */
  function IndexEntries(xs: seq<JsValue>): (r: map<string, JsValue>)
    ensures r.Keys == IndexKeys(|xs|)
    ensures forall i :: 0 <= i < |xs| ==> r[NatToDecimal(i)] == xs[i]
  {
    forall i, j | 0 <= i < |xs| && 0 <= j < |xs| && NatToDecimal(i) == NatToDecimal(j)
      ensures i == j
    {
      NatToDecimalInjective(i, j);
    }
    map i | 0 <= i < |xs| :: NatToDecimal(i) := xs[i]
  }

  function CharValues(s: string): (r: seq<JsValue>)
    ensures |r| == |s|
    ensures forall i :: 0 <= i < |s| ==> r[i] == Str([s[i]])
  {
    seq(|s|, i requires 0 <= i < |s| => Str([s[i]]))
  }

  /** The properties object spread `{...v}` copies: an object's own
      properties, an array's or a string's indices, and nothing from `null`,
      `undefined`, booleans or numbers. */
  function Spread(v: JsValue): (r: map<string, JsValue>)
    ensures v.Obj? ==> r == v.props
    ensures v.Null? || v.Undefined? || v.Bool? || v.Num? ==> r == map[]
    ensures v.Arr? ==> r.Keys == IndexKeys(|v.elems|) && |r.Keys| == |v.elems|
    ensures v.Arr? ==> forall i :: 0 <= i < |v.elems| ==> r[NatToDecimal(i)] == v.elems[i]
    ensures v.Str? ==> r.Keys == IndexKeys(|v.s|)
    ensures v.Str? ==> forall i :: 0 <= i < |v.s| ==> r[NatToDecimal(i)] == Str([v.s[i]])
  {
    match v
    case Obj(m) => m
    case Arr(xs) => IndexEntriesCount(xs); IndexEntries(xs)
    case Str(s) => IndexEntries(CharValues(s))
    case _ => map[]
  }

  /** Distinct indices give distinct keys, so an array spreads into exactly as
      many properties as it has elements. */
  lemma IndexEntriesCount(xs: seq<JsValue>)
    ensures |IndexEntries(xs).Keys| == |xs|
  {
    IndexKeysCount(|xs|);
  }
}

=== FILE: normalise.dfy ===
/** The two input normalisers of the analysis request: the Markdown code-fence
    strip applied to the Gemini reply before it is parsed, and the removal of
    a leading `data:image/...;base64,` header from the image sent to Gemini. */
module Normalise {
  import opened Text

  const JsonFence: string := "```json"
  const Fence: string := "```"

  /** `s` contains no three consecutive backticks. */
  predicate FenceFree(s: string) {
    Absent(s, Fence)
  }

  /** `text.replace(/```json/g, '').replace(/```/g, '').trim()`. */
  function StripFences(reply: string): (r: string)
    ensures FenceFree(r)
    ensures |r| <= |reply|
  {
    var noFence := DeleteAll(DeleteAll(reply, JsonFence), Fence);
    DeleteFenceLeavesNone(DeleteAll(reply, JsonFence));
    TrimKeepsAbsent(noFence, Fence);
    Trim(noFence)
  }

  lemma FenceAt(s: string, i: int)
    ensures OccursAt(s, Fence, i) <==>
      0 <= i && i + 3 <= |s| && s[i] == '`' && s[i + 1] == '`' && s[i + 2] == '`'
  {
    if 0 <= i && i + 3 <= |s| {
      var w := s[i..i + 3];
      assert w[0] == s[i] && w[1] == s[i + 1] && w[2] == s[i + 2];
      if s[i] == '`' && s[i + 1] == '`' && s[i + 2] == '`' {
        assert w == Fence;
      }
    }
  }

  /** Deleting fences keeps a leading character that is not a backtick. */
  lemma KeepsLeadingNonTick(t: string)
    requires |t| > 0 && t[0] != '`'
    ensures |DeleteAll(t, Fence)| > 0 && DeleteAll(t, Fence)[0] == t[0]
  {
    if |t| >= 3 {
      FenceAt(t, 0);
      assert t[..3] != Fence;
    }
  }

  /** A lone backtick (one not followed by another) survives and keeps its
      successor next to it. */
  lemma KeepsLoneTick(t: string)
    requires |t| >= 2 && t[0] == '`' && t[1] != '`'
    ensures |DeleteAll(t, Fence)| >= 2 && DeleteAll(t, Fence)[1] == t[1]
  {
    if |t| >= 3 {
      FenceAt(t, 0);
      assert t[..3] != Fence;
      KeepsLeadingNonTick(t[1..]);
    }
  }

  /** A run of `n` backticks loses `3 * (n / 3)` of them to the deletion and
      the remaining one or two never meet another run, so no fence is left. */
  lemma {:induction false} DeleteFenceLeavesNone(s: string)
    ensures FenceFree(DeleteAll(s, Fence))
    decreases |s|
  {
    var r := DeleteAll(s, Fence);
    if |s| < 3 {
      assert r == s;
    } else if s[..3] == Fence {
      DeleteFenceLeavesNone(s[3..]);
    } else {
      var tail := DeleteAll(s[1..], Fence);
      assert r == [s[0]] + tail;
      DeleteFenceLeavesNone(s[1..]);
      FenceAt(s, 0);
      FenceAt(r, 0);
      if s[0] == '`' {
        if s[1] != '`' {
          KeepsLeadingNonTick(s[1..]);
        } else {
          assert s[2] != '`';
          KeepsLoneTick(s[1..]);
        }
      }
      AbsentCons(s[0], tail, Fence);
    }
  }

  /** An occurrence of "```json" starts with an occurrence of "```". */
  lemma FenceFreeHasNoJsonFence(s: string)
    requires FenceFree(s)
    ensures Absent(s, JsonFence)
  {
    forall i | 0 <= i < |s|
      ensures !OccursAt(s, JsonFence, i)
    {
      if i + 7 <= |s| {
        assert s[i..i + 7][..3] == s[i..i + 3];
        assert JsonFence[..3] == Fence;
        assert !OccursAt(s, Fence, i);
      }
    }
  }

  /** On a reply that holds no fence, stripping is plain trimming. */
  lemma StripFencesOfFenceFree(s: string)
    requires FenceFree(s)
    ensures StripFences(s) == Trim(s)
  {
    FenceFreeHasNoJsonFence(s);
    DeleteAllAbsent(s, JsonFence);
    DeleteAllAbsent(s, Fence);
  }

  lemma StripFencesIdempotent(s: string)
    ensures StripFences(StripFences(s)) == StripFences(s)
  {
    var y := StripFences(s);
    StripFencesOfFenceFree(y);
    TrimIdempotent(DeleteAll(DeleteAll(s, JsonFence), Fence));
  }

  /** In "\n" + body + "\n```" the only fence is the closing one. */
  lemma OnlyClosingFence(body: string)
    requires FenceFree(body)
    ensures var x := "\n" + body + "\n";
      AbsentBefore(x + Fence, Fence, |x|)
  {
    var x := "\n" + body + "\n";
    var s := x + Fence;
    forall i | 0 <= i < |x|
      ensures !OccursAt(s, Fence, i)
    {
      FenceAt(s, i);
      if 1 <= i && i + 3 <= |body| + 1 {
        FenceAt(body, i - 1);
        assert s[i] == body[i - 1] && s[i + 1] == body[i] && s[i + 2] == body[i + 1];
      } else if i != 0 {
        assert s[|body| + 1] == '\n';
      }
    }
  }

  /** Step one of the wrapped reply: the opening "```json" is the only one. */
  lemma WrappedLosesJsonFence(body: string)
    requires FenceFree(body)
    ensures var x := "\n" + body + "\n";
      DeleteAll(JsonFence + "\n" + body + "\n" + Fence, JsonFence) == x + Fence
  {
    var x := "\n" + body + "\n";
    assert JsonFence + "\n" + body + "\n" + Fence == JsonFence + (x + Fence);
    DeleteAllLeading(JsonFence, x + Fence);
    OnlyClosingFence(body);
    forall i | 0 <= i < |x + Fence|
      ensures !OccursAt(x + Fence, JsonFence, i)
    {
      if i + 7 <= |x + Fence| {
        assert (x + Fence)[i..i + 7][..3] == (x + Fence)[i..i + 3];
        assert JsonFence[..3] == Fence;
        assert !OccursAt(x + Fence, Fence, i);
      }
    }
    DeleteAllAbsent(x + Fence, JsonFence);
  }

  /** Step two of the wrapped reply: only the closing fence goes. */
  lemma WrappedLosesClosingFence(body: string)
    requires FenceFree(body)
    ensures var x := "\n" + body + "\n";
      DeleteAll(x + Fence, Fence) == x
  {
    var x := "\n" + body + "\n";
    OnlyClosingFence(body);
    DeleteAllKeepsPrefix(x, Fence, Fence);
    DeleteAllLeading(Fence, []);
    assert Fence + [] == Fence;
    assert x + [] == x;
  }

  /** A reply wrapped in a "```json" block, as Gemini usually sends it, is
      stripped to the same text as the bare reply. */
  lemma StripFencesOfWrapped(body: string)
    requires FenceFree(body)
    ensures StripFences(JsonFence + "\n" + body + "\n" + Fence) == StripFences(body)
  {
    WrappedLosesJsonFence(body);
    WrappedLosesClosingFence(body);
    assert AllSpace("\n");
    TrimOfSurrounded("\n", body, "\n");
    StripFencesOfFenceFree(body);
  }

  const DataImagePrefix: string := "data:image/"
  const Base64Marker: string := ";base64,"

  /** The regular-expression class `\w`. */
  predicate IsWordChar(c: char) {
    ('A' <= c <= 'Z') || ('a' <= c <= 'z') || ('0' <= c <= '9') || c == '_'
  }

  /** `h` is exactly a match of `^data:image\/\w+;base64,`. */
  predicate IsDataUriHeader(h: string) {
    && |h| > |DataImagePrefix| + |Base64Marker|
    && h[..|DataImagePrefix|] == DataImagePrefix
    && h[|h| - |Base64Marker|..] == Base64Marker
    && forall i :: |DataImagePrefix| <= i < |h| - |Base64Marker| ==> IsWordChar(h[i])
  }

  /** The length of the longest run of word characters that starts `s`. */
  function WordRun(s: string): (n: nat)
    ensures n <= |s|
    ensures forall i :: 0 <= i < n ==> IsWordChar(s[i])
    ensures n == |s| || !IsWordChar(s[n])
  {
    if s != [] && IsWordChar(s[0]) then 1 + WordRun(s[1..]) else 0
  }

  /** `image.replace(/^data:image\/\w+;base64,/, "")`: the pattern is anchored
      and not global, so at most one header, at the very start, is removed. */
  function StripDataUri(image: string): (r: string)
    ensures |r| <= |image| && r == image[|image| - |r|..]
    ensures r != image ==> IsDataUriHeader(image[..|image| - |r|])
  {
    if |image| >= |DataImagePrefix| && image[..|DataImagePrefix|] == DataImagePrefix then
      var n := WordRun(image[|DataImagePrefix|..]);
      var k := |DataImagePrefix| + n;
      if n > 0 && k + |Base64Marker| <= |image| && image[k..k + |Base64Marker|] == Base64Marker then
        var h := image[..k + |Base64Marker|];
        assert h[|h| - |Base64Marker|..] == image[k..k + |Base64Marker|];
        assert forall i :: |DataImagePrefix| <= i < k ==> h[i] == image[|DataImagePrefix|..][i - |DataImagePrefix|];
        image[k + |Base64Marker|..]
      else image
    else image
  }

  /** A run of word characters ended by a non-word character is what
      `WordRun` measures. */
  lemma WordRunUpTo(s: string, m: nat)
    requires m < |s| && !IsWordChar(s[m])
    requires forall i :: 0 <= i < m ==> IsWordChar(s[i])
    ensures WordRun(s) == m
  {
  }

  /** Conversely, a leading header is always removed, whatever follows it. */
  lemma StripDataUriOfHeader(h: string, rest: string)
    requires IsDataUriHeader(h)
    ensures StripDataUri(h + rest) == rest
  {
    var image := h + rest;
    var p := |DataImagePrefix|;
    var k := |h| - |Base64Marker|;
    assert image[..p] == h[..p];
    var t := image[p..];
    assert forall i :: 0 <= i < k - p ==> t[i] == h[p + i];
    assert t[k - p] == h[k] == ';';
    WordRunUpTo(t, k - p);
    assert image[k..k + |Base64Marker|] == h[k..];
    assert image[k + |Base64Marker|..] == rest;
  }

  /** The removal is not repeated: of two leading headers only the first is
      removed, and the second is left at the head of the result. */
  lemma StripDataUriRemovesOnce(h1: string, h2: string, rest: string)
    requires IsDataUriHeader(h1) && IsDataUriHeader(h2)
    ensures StripDataUri(h1 + h2 + rest) == h2 + rest
  {
    var t := h2 + rest;
    StripDataUriOfHeader(h1, t);
    assert h1 + h2 + rest == h1 + t;
  }
}

=== FILE: prompt.dfy ===
/** The instruction text sent to either vision model: a fixed base text that
    lists the seven closed vocabularies, a line break, and a block with the
    patient's context in which every absent or empty field has a literal
    fallback. */
module Prompt {
  import opened Results
  import opened JsValues
  import opened Text

  /** The seven classification fields, in the order the base text lists them. */
  datatype Field = Etiology | Tissue | Exudate | Perilesional | Infection | PrimaryDressing | DressingGoal

  /** The JSON key the model is asked to fill for a field. */
  function Key(f: Field): string {
    match f
      case Etiology => "etiologia_probable"
      case Tissue => "tejido_predominante"
      case Exudate => "nivel_exudado"
      case Perilesional => "piel_perilesional"
      case Infection => "signos_infeccion"
      case PrimaryDressing => "aposito_primario"
      case DressingGoal => "objetivo_aposito"
  }

  /** The closed vocabulary of a field, verbatim: the model's answer is
      compared against these labels, so not a byte may differ. */
  function Vocabulary(f: Field): seq<string> {
    match f
      case Etiology => [
        "Lesión por presión (LPP)",
        "Úlcera venosa (de extremidad inferior)",
        "Úlcera arterial / isquémica",
        "Úlcera de pie diabético (Neuropática/Neuroisquémica)",
        "Herida quirúrgica (Dehiscencia o cierre por segunda intención)",
        "Otro"
      ]
      case Tissue => [
        "Tejido necrótico",
        "Tejido esfacelado",
        "Tejido de granulación",
        "Tejido de epitelización",
        "Mezcla de tejidos (>50% sin predominio claro)"
      ]
      case Exudate => [
        "Seco / No visible",
        "Húmedo óptimo",
        "Mojado / saturado",
        "Fuga de exudado"
      ]
      case Perilesional => [
        "Sana / Intacta (Color y textura similar a la piel circundante normal)",
        "Macerada (Color blanquecino, aspecto húmedo y frágil por exceso de exudado)",
        "Eritematosa / Inflamada (Roja, con apariencia caliente o edematosa)",
        "Hiperqueratósica / Callosa (Bordes engrosados, duros y secos)"
      ]
      case Infection => [
        "No se observan signos de infección",
        "Inflamación leve (eritema local)",
        "Sospecha de infección local",
        "Signos claros de infección local"
      ]
      case PrimaryDressing => [
        "Ninguno (No aplicar pósito / Dejar al aire)",
        "Hidrogel (Gel o placa)",
        "Hidrocoloide",
        "Espuma de poliuretano (Foam)",
        "Alginato cálcico o Fibra gelificante (Hidrofibra)",
        "Apósito con Plata u otro antimicrobiano (Yodo, DACC, Miel)",
        "Malla de silicona o Tul graso (Interface neutra)"
      ]
      case DressingGoal => [
        "Desbridar / Hidratar (Aportar humedad para ablandar necrosis seca; ej. Hidrogel)",
        "Gestionar exudado / Absorción (Controlar exceso de líquido; ej. Alginatos, Fibras, Espumas)",
        "Controlar carga bacteriana (Sospecha de infección local o biofilm; ej. Plata, DACC, Yodo)",
        "Proteger granulación / Epitelización (Mantener ambiente húmedo óptimo y evitar traumatismos)"
      ]
  }

  /** The text between two items of a list: the last list of the base text
      has no blank after its commas. */
  function ItemSeparator(f: Field): string {
    if f == DressingGoal then ",\n" else ", \n"
  }

  const Intro: string :=
    "\n" +
    "Actúa como enfermera experta en heridas. Analiza la imagen y devuelve un JSON.\n" +
    "Debes elegir la opción que mejor encaje de las listas EXACTAS para los campos de selección.\n" +
    "\n" +
    "IMPORTANTE:\n" +
    "Se te proporcionará contexto del paciente (Edad, Diabetes, etc.). USA ESE CONTEXTO para personalizar el campo \"recomendaciones_cuidados\".\n" +
    "Por ejemplo, si es diabético, enfócate en control glucémico y descargas. Si tiene patología vascular, adapta el vendaje, etc.\n" +
    "\n" +
    "Listas EXACTAS:\n"

  const Outro: string :=
    "\n" +
    "El campo \"recomendaciones_cuidados\" debe ser un texto breve (string) con saltos de línea o guiones.\n" +
    "Responde SOLO con el JSON válido.\n"

  /** How one list is laid out: its key, its labels and what separates them. */
  datatype ListSpec = ListSpec(key: string, items: seq<string>, sep: string)

  function Spec(f: Field): ListSpec {
    ListSpec(Key(f), Vocabulary(f), ItemSeparator(f))
  }

  function QuotedItem(item: string): string {
    "\"" + item + "\""
  }

  function ListHeading(key: string): string {
    "- " + key + ": ["
  }

  function RenderItems(items: seq<string>, sep: string): string {
    if items == [] then ""
    else if |items| == 1 then "    " + QuotedItem(items[0])
    else "    " + QuotedItem(items[0]) + sep + RenderItems(items[1..], sep)
  }

  function RenderList(spec: ListSpec): string {
    ListHeading(spec.key) + "\n" + RenderItems(spec.items, spec.sep) + "\n  ]\n"
  }

  function RenderLists(specs: seq<ListSpec>): string {
    if specs == [] then "" else RenderList(specs[0]) + RenderLists(specs[1..])
  }

  /** The lists in the order the base text gives them. */
  const ListedFields: seq<Field> := [Etiology, Tissue, Exudate, Perilesional, Infection, PrimaryDressing, DressingGoal]

  function SpecsOf(fs: seq<Field>): (specs: seq<ListSpec>)
    ensures |specs| == |fs|
    ensures forall i :: 0 <= i < |fs| ==> specs[i] == Spec(fs[i])
  {
    seq(|fs|, i requires 0 <= i < |fs| => Spec(fs[i]))
  }

  function ListedSpecs(): seq<ListSpec> {
    SpecsOf(ListedFields)
  }

  /** `SYSTEM_PROMPT_BASE`. */
  function Base(): string {
    Intro + RenderLists(ListedSpecs()) + Outro
  }

  /** Every label of a list is rendered, in quotes, inside the list. */
  lemma {:induction false} ItemRendered(items: seq<string>, sep: string, i: int)
    requires 0 <= i < |items|
    ensures Contains(RenderItems(items, sep), QuotedItem(items[i]))
    decreases |items|
  {
    var q := QuotedItem(items[0]);
    if i == 0 {
      ContainsSelf(q);
      ContainsInRight("    ", q, q);
      if |items| > 1 {
        ContainsInLeft("    " + q, sep + RenderItems(items[1..], sep), q);
        assert "    " + q + sep + RenderItems(items[1..], sep) == ("    " + q) + (sep + RenderItems(items[1..], sep));
      }
    } else {
      ItemRendered(items[1..], sep, i - 1);
      ContainsInRight("    " + q + sep, RenderItems(items[1..], sep), QuotedItem(items[i]));
    }
  }

  /** A rendered list carries its heading and each of its quoted labels. */
  lemma ListMentions(spec: ListSpec, i: int)
    requires 0 <= i < |spec.items|
    ensures Contains(RenderList(spec), ListHeading(spec.key))
    ensures Contains(RenderList(spec), QuotedItem(spec.items[i]))
  {
    var heading := ListHeading(spec.key);
    var items := RenderItems(spec.items, spec.sep);
    var tail := "\n  ]\n";
    assert RenderList(spec) == heading + ("\n" + items + tail);
    ContainsSelf(heading);
    ContainsInLeft(heading, "\n" + items + tail, heading);
    ItemRendered(spec.items, spec.sep, i);
    ContainsInRight(heading + "\n", items, QuotedItem(spec.items[i]));
    ContainsInLeft(heading + "\n" + items, tail, QuotedItem(spec.items[i]));
  }

  lemma {:induction false} ListRendered(specs: seq<ListSpec>, k: int)
    requires 0 <= k < |specs|
    ensures Contains(RenderLists(specs), RenderList(specs[k]))
    decreases |specs|
  {
    if k == 0 {
      ContainsSelf(RenderList(specs[0]));
      ContainsInLeft(RenderList(specs[0]), RenderLists(specs[1..]), RenderList(specs[0]));
    } else {
      ListRendered(specs[1..], k - 1);
      ContainsInRight(RenderList(specs[0]), RenderLists(specs[1..]), RenderList(specs[k]));
    }
  }

  lemma BaseHasList(k: int)
    requires 0 <= k < |ListedSpecs()|
    ensures Contains(Base(), RenderList(ListedSpecs()[k]))
  {
    var lists := RenderLists(ListedSpecs());
    var list := RenderList(ListedSpecs()[k]);
    ListRendered(ListedSpecs(), k);
    ContainsInRight(Intro, lists, list);
    ContainsInLeft(Intro + lists, Outro, list);
  }

  function Position(f: Field): (k: nat)
    ensures k < |ListedFields| && ListedFields[k] == f
  {
    match f
    case Etiology => 0
    case Tissue => 1
    case Exudate => 2
    case Perilesional => 3
    case Infection => 4
    case PrimaryDressing => 5
    case DressingGoal => 6
  }

  /** The base text holds every field's list, and that list carries the
      field's heading and quotes every label of its vocabulary. */
  lemma VocabularyInBase(f: Field, i: int)
    requires 0 <= i < |Vocabulary(f)|
    ensures Contains(Base(), RenderList(Spec(f)))
    ensures Contains(RenderList(Spec(f)), ListHeading(Key(f)))
    ensures Contains(RenderList(Spec(f)), QuotedItem(Vocabulary(f)[i]))
    ensures Contains(Base(), ListHeading(Key(f)))
    ensures Contains(Base(), QuotedItem(Vocabulary(f)[i]))
  {
    var k := Position(f);
    var spec := ListedSpecs()[k];
    assert spec == Spec(f);
    BaseHasList(k);
    ListMentions(spec, i);
    ContainsTransitive(Base(), RenderList(spec), ListHeading(spec.key));
    ContainsTransitive(Base(), RenderList(spec), QuotedItem(spec.items[i]));
  }

  const AgeFallback: string := "No especificada"
  const SexFallback: string := "No especificado"
  const FlagFallback: string := "No"

  /** The five interpolated values of the patient-context block. */
  datatype Context = Context(age: string, sex: string, vascular: string, cardiac: string, diabetic: string)

  /** The context of a patient about whom nothing is known. */
  const DefaultContext: Context := Context(AgeFallback, SexFallback, FlagFallback, FlagFallback, FlagFallback)

  /** `${v || fallback}`: a falsy value (absent, null, empty text, zero,
      false) is replaced by the fallback; any other value is converted as
      a template literal converts it. */
  function Slot(v: JsValue, fallback: string): (r: Result<string>)
    ensures !Truthy(v) ==> r == Ok(fallback)
    ensures Truthy(v) ==> r == ToText(v)
    ensures v.Str? && v.s != "" ==> r == Ok(v.s)
    ensures r.Err? ==> r.message == NoPrimitiveMessage
    ensures fallback != "" && r.Ok? && r.value == "" ==> v.Arr?
  {
    if Truthy(v) then ToText(v) else Ok(fallback)
  }

  /** Interpolating `v || fallback` throws: `v` is truthy and its
      conversion to text fails. */
  predicate Throws(v: JsValue) {
    Truthy(v) && ToText(v).Err?
  }

  /** Reads `patientData?.edad`, `?.sexo`, `?.vascular`, `?.cardiaca` and
      `?.diabetico`, left to right. A present value is converted to text; an
      absent or falsy one takes its field's fallback. */
  function ReadContext(patientData: JsValue): (r: Result<Context>)
    ensures r.Ok? ==> (!Truthy(OptionalGet(patientData, "edad")) ==> r.value.age == AgeFallback)
    ensures r.Ok? ==> (!Truthy(OptionalGet(patientData, "sexo")) ==> r.value.sex == SexFallback)
    ensures r.Ok? ==> (!Truthy(OptionalGet(patientData, "vascular")) ==> r.value.vascular == FlagFallback)
    ensures r.Ok? ==> (!Truthy(OptionalGet(patientData, "cardiaca")) ==> r.value.cardiac == FlagFallback)
    ensures r.Ok? ==> (!Truthy(OptionalGet(patientData, "diabetico")) ==> r.value.diabetic == FlagFallback)
    ensures r.Ok? && Truthy(OptionalGet(patientData, "edad")) ==> Ok(r.value.age) == ToText(OptionalGet(patientData, "edad"))
    ensures r.Ok? && Truthy(OptionalGet(patientData, "sexo")) ==> Ok(r.value.sex) == ToText(OptionalGet(patientData, "sexo"))
    ensures r.Ok? && Truthy(OptionalGet(patientData, "vascular")) ==> Ok(r.value.vascular) == ToText(OptionalGet(patientData, "vascular"))
    ensures r.Ok? && Truthy(OptionalGet(patientData, "cardiaca")) ==> Ok(r.value.cardiac) == ToText(OptionalGet(patientData, "cardiaca"))
    ensures r.Ok? && Truthy(OptionalGet(patientData, "diabetico")) ==> Ok(r.value.diabetic) == ToText(OptionalGet(patientData, "diabetico"))
    ensures r.Err? <==>
      || Throws(OptionalGet(patientData, "edad")) || Throws(OptionalGet(patientData, "sexo"))
      || Throws(OptionalGet(patientData, "vascular")) || Throws(OptionalGet(patientData, "cardiaca"))
      || Throws(OptionalGet(patientData, "diabetico"))
    ensures r.Err? ==> r.message == NoPrimitiveMessage && patientData.Obj?
    ensures !patientData.Obj? ==> r == Ok(DefaultContext)
  {
    var age :- Slot(OptionalGet(patientData, "edad"), AgeFallback);
    var sex :- Slot(OptionalGet(patientData, "sexo"), SexFallback);
    var vascular :- Slot(OptionalGet(patientData, "vascular"), FlagFallback);
    var cardiac :- Slot(OptionalGet(patientData, "cardiaca"), FlagFallback);
    var diabetic :- Slot(OptionalGet(patientData, "diabetico"), FlagFallback);
    Ok(Context(age, sex, vascular, cardiac, diabetic))
  }

  /** One line of the context block: the field name, a colon, the value. */
  function ContextLine(name: string, value: string): string {
    "\n      - " + name + ": " + value
  }

  const ContextHeader: string := "\n      CONTEXTO DEL PACIENTE:"
  const ContextTail: string := "\n    "

  /** `patientContext`: the template with its line breaks and indentation.
      The block opens with its heading; then come the five lines, in the
      order age, sex, vascular, cardiac, diabetic, each value followed
      directly by the line break that starts the next line or the closing
      indentation. */
  function ContextBlock(c: Context): (r: string)
    ensures ContextHeader <= r
    ensures Contains(r, ContextHeader + ContextLine("Edad", c.age))
    ensures Contains(r, ContextLine("Edad", c.age) + ContextLine("Sexo", c.sex))
    ensures Contains(r, ContextLine("Sexo", c.sex) + ContextLine("Patología Vascular", c.vascular))
    ensures Contains(r, ContextLine("Patología Vascular", c.vascular) + ContextLine("Patología Cardiaca", c.cardiac))
    ensures Contains(r, ContextLine("Patología Cardiaca", c.cardiac) + ContextLine("Diabético", c.diabetic))
    ensures Contains(r, ContextLine("Diabético", c.diabetic) + ContextTail)
    ensures |ContextTail| <= |r| && r[|r| - |ContextTail|..] == ContextTail
    ensures Contains(r, ContextLine("Edad", c.age))
    ensures Contains(r, ContextLine("Sexo", c.sex))
    ensures Contains(r, ContextLine("Patología Vascular", c.vascular))
    ensures Contains(r, ContextLine("Patología Cardiaca", c.cardiac))
    ensures Contains(r, ContextLine("Diabético", c.diabetic))
    ensures r == ContextHeader + ContextLine("Edad", c.age) + ContextLine("Sexo", c.sex)
                 + ContextLine("Patología Vascular", c.vascular) + ContextLine("Patología Cardiaca", c.cardiac)
                 + ContextLine("Diabético", c.diabetic) + ContextTail
  {
    var l1, l2, l3 := ContextLine("Edad", c.age), ContextLine("Sexo", c.sex), ContextLine("Patología Vascular", c.vascular);
    var l4, l5 := ContextLine("Patología Cardiaca", c.cardiac), ContextLine("Diabético", c.diabetic);
    SevenPieces(ContextHeader, l1, l2, l3, l4, l5, ContextTail);
    ContextHeader + l1 + l2 + l3 + l4 + l5 + ContextTail
  }

  /** `FINAL_PROMPT`: the base text, a line break, then the context block.
      The only failure is a value whose conversion to text throws. */
  function FinalPrompt(patientData: JsValue): (r: Result<string>)
    ensures r.Ok? <==> ReadContext(patientData).Ok?
    ensures r.Err? ==> r.message == NoPrimitiveMessage
  {
    var c :- ReadContext(patientData);
    Ok(Base() + "\n" + ContextBlock(c))
  }

  /** Whatever precedes the context block, its five lines stay in the text. */
  lemma ContextAfter(head: string, c: Context)
    ensures var t := head + ContextBlock(c);
      && Contains(t, ContextLine("Edad", c.age))
      && Contains(t, ContextLine("Sexo", c.sex))
      && Contains(t, ContextLine("Patología Vascular", c.vascular))
      && Contains(t, ContextLine("Patología Cardiaca", c.cardiac))
      && Contains(t, ContextLine("Diabético", c.diabetic))
  {
    var b := ContextBlock(c);
    ContainsInRight(head, b, ContextLine("Edad", c.age));
    ContainsInRight(head, b, ContextLine("Sexo", c.sex));
    ContainsInRight(head, b, ContextLine("Patología Vascular", c.vascular));
    ContainsInRight(head, b, ContextLine("Patología Cardiaca", c.cardiac));
    ContainsInRight(head, b, ContextLine("Diabético", c.diabetic));
  }

  /** The patient's values reach the prompt: each of the five context values
      read from the request sits on its labelled line of the built prompt. */
  lemma FinalPromptCarriesContext(patientData: JsValue)
    requires ReadContext(patientData).Ok?
    ensures FinalPrompt(patientData).Ok?
    ensures var r, c := FinalPrompt(patientData).value, ReadContext(patientData).value;
      && Contains(r, ContextLine("Edad", c.age))
      && Contains(r, ContextLine("Sexo", c.sex))
      && Contains(r, ContextLine("Patología Vascular", c.vascular))
      && Contains(r, ContextLine("Patología Cardiaca", c.cardiac))
      && Contains(r, ContextLine("Diabético", c.diabetic))
    ensures var r, c := FinalPrompt(patientData).value, ReadContext(patientData).value;
      |Base() + "\n"| <= |r| && r[|Base() + "\n"|..] == ContextBlock(c)
  {
    var c := ReadContext(patientData).value;
    var head := Base() + "\n";
    assert FinalPrompt(patientData) == Ok(head + ContextBlock(c));
    ContextAfter(head, c);
  }

  /** Whatever the patient data, a built prompt starts with the base text
      and a line break: the context is only ever appended. */
  lemma FinalPromptExtendsBase(patientData: JsValue)
    requires FinalPrompt(patientData).Ok?
    ensures var p := FinalPrompt(patientData).value;
      |Base() + "\n"| <= |p| && p[..|Base() + "\n"|] == Base() + "\n"
  {
  }

  /** A patient record without any truthy field, or no record at all, gives
      the prompt with every fallback in place. */
  lemma FinalPromptOfUnknownPatient(patientData: JsValue)
    requires !Truthy(OptionalGet(patientData, "edad")) && !Truthy(OptionalGet(patientData, "sexo"))
    requires !Truthy(OptionalGet(patientData, "vascular")) && !Truthy(OptionalGet(patientData, "cardiaca"))
    requires !Truthy(OptionalGet(patientData, "diabetico"))
    ensures FinalPrompt(patientData) == Ok(Base() + "\n" + ContextBlock(DefaultContext))
  {
  }

  /** Non-empty text fields are inserted verbatim. */
  lemma ReadContextOfTextFields(age: string, sex: string, vascular: string, cardiac: string, diabetic: string)
    requires age != "" && sex != "" && vascular != "" && cardiac != "" && diabetic != ""
    ensures var patientData := Obj(map["edad" := Str(age), "sexo" := Str(sex), "vascular" := Str(vascular),
                                       "cardiaca" := Str(cardiac), "diabetico" := Str(diabetic)]);
      ReadContext(patientData) == Ok(Context(age, sex, vascular, cardiac, diabetic))
  {
    var m := map["edad" := Str(age), "sexo" := Str(sex), "vascular" := Str(vascular),
                 "cardiaca" := Str(cardiac), "diabetico" := Str(diabetic)];
    assert m["edad"] == Str(age) by {
      assert "edad" != "sexo" && "edad" != "vascular" && "edad" != "cardiaca" && "edad" != "diabetico";
    }
    assert m["sexo"] == Str(sex) by {
      assert "sexo" != "vascular" && "sexo" != "cardiaca" && "sexo" != "diabetico";
    }
    assert m["vascular"] == Str(vascular) by {
      assert "vascular" != "cardiaca" && "vascular" != "diabetico";
    }
    assert m["cardiaca"] == Str(cardiac) by {
      assert "cardiaca" != "diabetico";
    }
  }
}

=== FILE: results.dfy ===
/** Success/failure carriers shared by every module. A JavaScript exception is
    represented by the `message` text that the handler later interpolates. */
module Results {

  datatype Option<+T> = None | Some(value: T)

  datatype Result<+R> = Ok(value: R) | Err(message: string) {

    predicate IsFailure() {
      Err?
    }

    function PropagateFailure<U>(): Result<U>
      requires Err?
    {
      Err(message)
    }

    function Extract(): R
      requires Ok?
    {
      value
    }
  }
}

=== FILE: sheet_log.dfy ===
/** The spreadsheet log: the twelve-column row appended after a successful
    classification, and the advisory `sheetStatus` text reported back. */
module SheetLog {
  import opened Results
  import opened JsValues

  const Provenance: string := "Inteligencia Artificial"
  const PromptVersion: string := "Prompt v1.0"
  const RowWidth: nat := 12

  /** The reply keys copied into columns C to I, in column order (which is
      not the order the prompt lists them in). */
  const LoggedKeys: seq<string> := [
    "etiologia_probable", "tejido_predominante", "nivel_exudado", "signos_infeccion",
    "piel_perilesional", "objetivo_aposito", "aposito_primario"
  ]

  /** Column K: the provider's display name, decided by its own test on the
      tag, independently of the one that picks the provider. */
  function ProviderName(modelId: JsValue): (name: string)
    ensures name == "ChatGPT" <==> modelId == Str("chatgpt")
    ensures name == "ChatGPT" || name == "Gemini"
  {
    if modelId == Str("chatgpt") then "ChatGPT" else "Gemini"
  }

  /** The row of columns A to L. Reading the first reply field of a `null`
      reply throws before the row exists; every other reply gives a row, with
      `undefined` in a column whose key the reply lacks. */
  function BuildRow(timestamp: string, identificationCode: JsValue, result: JsValue, modelId: JsValue): (r: Result<seq<JsValue>>)
    ensures r.Err? <==> result.Null? || result.Undefined?
    ensures r.Err? ==> r.message == StrictGet(result, LoggedKeys[0]).message
    ensures r.Ok? ==> |r.value| == RowWidth
    ensures r.Ok? ==> r.value[0] == Str(timestamp) && r.value[1] == identificationCode
    ensures r.Ok? ==> forall k :: 0 <= k < |LoggedKeys| ==> r.value[2 + k] == OptionalGet(result, LoggedKeys[k])
    ensures r.Ok? ==> r.value[9] == Str(Provenance) && r.value[10] == Str(ProviderName(modelId)) && r.value[11] == Str(PromptVersion)
  {
    var _ :- StrictGet(result, LoggedKeys[0]);
    Ok([Str(timestamp), identificationCode]
       + seq(|LoggedKeys|, k requires 0 <= k < |LoggedKeys| => OptionalGet(result, LoggedKeys[k]))
       + [Str(Provenance), Str(ProviderName(modelId)), Str(PromptVersion)])
  }

  /** The row never carries the care recommendations (nor any other key
      outside columns C to I): adding or changing one leaves the row as it is. */
  lemma RowIgnoresUnloggedKeys(timestamp: string, identificationCode: JsValue, m: map<string, JsValue>,
                               key: string, v: JsValue, modelId: JsValue)
    requires key !in LoggedKeys
    ensures BuildRow(timestamp, identificationCode, Obj(m[key := v]), modelId)
         == BuildRow(timestamp, identificationCode, Obj(m), modelId)
  {
    var r1 := BuildRow(timestamp, identificationCode, Obj(m[key := v]), modelId).value;
    var r2 := BuildRow(timestamp, identificationCode, Obj(m), modelId).value;
    forall j | 2 <= j < 2 + |LoggedKeys|
      ensures r1[j] == r2[j]
    {
      assert LoggedKeys[j - 2] != key;
    }
    assert r1 == r2;
  }

  lemma RowOmitsRecommendations(timestamp: string, identificationCode: JsValue, m: map<string, JsValue>,
                                care: JsValue, modelId: JsValue)
    ensures BuildRow(timestamp, identificationCode, Obj(m["recomendaciones_cuidados" := care]), modelId)
         == BuildRow(timestamp, identificationCode, Obj(m), modelId)
  {
    assert "recomendaciones_cuidados" !in LoggedKeys;
    RowIgnoresUnloggedKeys(timestamp, identificationCode, m, "recomendaciones_cuidados", care, modelId);
  }

  /** The three settings the log needs (sheet id, service-account e-mail and
      private key); each may be unset. */
  datatype SheetConfig = SheetConfig(sheetId: Option<string>, clientEmail: Option<string>, privateKey: Option<string>)

  /** A setting counts only when set to a non-empty text. */
  predicate Present(setting: Option<string>) {
    setting.Some? && setting.value != ""
  }

  /** Logging runs only when none of the three settings is unset or empty. */
  predicate Configured(config: SheetConfig)
    ensures Configured(config) <==>
      var settings := [config.sheetId, config.clientEmail, config.privateKey];
      None !in settings && Some("") !in settings
  {
    Present(config.sheetId) && Present(config.clientEmail) && Present(config.privateKey)
  }

  const NotConfigured: string := "No configurado"
  const SavedOk: string := "Guardado OK"
  const FailurePrefix: string := "Fallo Excel: "

  predicate IsFailureStatus(status: string) {
    |FailurePrefix| <= |status| && status[..|FailurePrefix|] == FailurePrefix
  }

  /** `Fallo Excel: ${e.message}`: never mistaken for the two other statuses. */
  function FailureStatus(message: string): (status: string)
    ensures IsFailureStatus(status)
    ensures status[|FailurePrefix|..] == message
    ensures status != NotConfigured && status != SavedOk
  {
    var status := FailurePrefix + message;
    assert status[0] == 'F';
    status
  }

  /** What the logging step did: the status text and the row it handed to
      the spreadsheet service, if any. */
  datatype LogOutcome = LogOutcome(status: string, appended: Option<seq<JsValue>>)

  /** The best-effort logging step. Nothing happens unless all three settings
      are present; a failure while building the row or appending it becomes a
      status text and nothing else. */
  function LogStep(config: SheetConfig, timestamp: string, identificationCode: JsValue, result: JsValue,
                   modelId: JsValue, append: seq<JsValue> -> Result<()>): (r: LogOutcome)
    ensures r.status == NotConfigured <==> !Configured(config)
    ensures r.appended.Some? <==> Configured(config) && BuildRow(timestamp, identificationCode, result, modelId).Ok?
    ensures r.appended.Some? ==> r.appended.value == BuildRow(timestamp, identificationCode, result, modelId).value
    ensures r.status == SavedOk <==> r.appended.Some? && append(r.appended.value).Ok?
    ensures Configured(config) && r.status != SavedOk ==> IsFailureStatus(r.status)
    ensures Configured(config) && BuildRow(timestamp, identificationCode, result, modelId).Err? ==>
      r.status == FailureStatus(BuildRow(timestamp, identificationCode, result, modelId).message)
    ensures r.appended.Some? && append(r.appended.value).Err? ==>
      r.status == FailureStatus(append(r.appended.value).message)
  {
    if !Configured(config) then LogOutcome(NotConfigured, None)
    else
      match BuildRow(timestamp, identificationCode, result, modelId)
      case Err(e) => LogOutcome(FailureStatus(e), None)
      case Ok(row) =>
        match append(row)
        case Ok(_) => LogOutcome(SavedOk, Some(row))
        case Err(e) => LogOutcome(FailureStatus(e), Some(row))
  }
}

=== FILE: text.dfy ===
/** The two string primitives the handler relies on: `String.prototype.trim`
    and `replace` with a global regular expression that matches one literal
    text, which deletes every non-overlapping occurrence from left to right. */
module Text {

  /** The characters `trim` removes: the ECMAScript WhiteSpace and
      LineTerminator code points (the Unicode `Zs` category, the ASCII
      controls TAB, LF, VT, FF, CR, the line and paragraph separators, and
      the byte-order mark). */
  predicate IsJsSpace(c: char) {
    || c == '\t' || c == '\n' || c == '\U{000B}' || c == '\U{000C}' || c == '\r'
    || c == ' ' || c == '\U{00A0}' || c == '\U{1680}'
    || ('\U{2000}' <= c <= '\U{200A}')
    || c == '\U{2028}' || c == '\U{2029}' || c == '\U{202F}' || c == '\U{205F}'
    || c == '\U{3000}' || c == '\U{FEFF}'
  }

  predicate AllSpace(s: string) {
    forall i :: 0 <= i < |s| ==> IsJsSpace(s[i])
  }

  lemma AllSpaceConcat(x: string, y: string)
    requires AllSpace(x) && AllSpace(y)
    ensures AllSpace(x + y)
  {
    assert forall i :: |x| <= i < |x + y| ==> (x + y)[i] == y[i - |x|];
  }

  /** Neither end of `s` is a whitespace character: what `trim` returns. */
  predicate Unpadded(s: string) {
    s == [] || (!IsJsSpace(s[0]) && !IsJsSpace(s[|s| - 1]))
  }

  /** `s` with its leading whitespace removed. */
  function TrimStart(s: string): (r: string)
    ensures |r| <= |s| && r == s[|s| - |r|..]
    ensures AllSpace(s[..|s| - |r|])
    ensures r == [] || !IsJsSpace(r[0])
  {
    if s != [] && IsJsSpace(s[0]) then TrimStart(s[1..]) else s
  }

  /** `s` with its trailing whitespace removed. */
  function TrimEnd(s: string): (r: string)
    ensures |r| <= |s| && r == s[..|r|]
    ensures AllSpace(s[|r|..])
    ensures r == [] || !IsJsSpace(r[|r| - 1])
  {
    if s != [] && IsJsSpace(s[|s| - 1]) then TrimEnd(s[..|s| - 1]) else s
  }

  /** `String.prototype.trim`: the unique unpadded infix of `s` whose
      surroundings are whitespace only (see `TrimOfPadded`). */
  function Trim(s: string): (r: string)
    ensures Unpadded(r)
    ensures var i := TrimOffset(s);
      i + |r| <= |s| && s[i..i + |r|] == r && AllSpace(s[..i]) && AllSpace(s[i + |r|..])
  {
    var t := TrimStart(s);
    var r := TrimEnd(t);
    TrimInfix(s, t, r);
    assert TrimOffset(s) == |s| - |t|;
    r
  }

  /** `r` occurs in `s` at offset `i`, with only whitespace before and after it. */
  predicate SpacedAt(s: string, i: nat, r: string) {
    i + |r| <= |s| && s[i..i + |r|] == r && AllSpace(s[..i]) && AllSpace(s[i + |r|..])
  }

  /** Where the trimmed text starts inside `s`. */
  function TrimOffset(s: string): (i: nat)
    ensures i <= |s|
  {
    |s| - |TrimStart(s)|
  }

  /** Gluing the two halves of `trim` back together: `t` is `s` without its
      leading whitespace and `r` is `t` without its trailing whitespace. */
  lemma TrimInfix(s: string, t: string, r: string)
    requires |t| <= |s| && t == s[|s| - |t|..] && AllSpace(s[..|s| - |t|])
    requires t == [] || !IsJsSpace(t[0])
    requires |r| <= |t| && r == t[..|r|] && AllSpace(t[|r|..])
    requires r == [] || !IsJsSpace(r[|r| - 1])
    ensures Unpadded(r)
    ensures SpacedAt(s, |s| - |t|, r)
  {
    var i := |s| - |t|;
    assert forall k :: 0 <= k < |r| ==> s[i..i + |r|][k] == s[i + k] == t[k] == r[k];
    assert forall k :: 0 <= k < |s| - (i + |r|) ==> s[i + |r|..][k] == s[i + |r| + k] == t[|r| + k] == t[|r|..][k];
    if r != [] {
      assert r[0] == t[0];
    }
  }

  /** The reference characterisation of `trim`: whitespace around an unpadded
      text is exactly what is removed. */
  lemma TrimOfPadded(a: string, m: string, b: string)
    requires AllSpace(a) && AllSpace(b) && Unpadded(m)
    ensures Trim(a + m + b) == m
  {
    if m == [] {
      assert a + m + b == (a + b) + [];
      TrimStartOfPadded(a + b, []);
    } else {
      assert a + m + b == a + (m + b);
      assert (m + b)[0] == m[0];
      TrimStartOfPadded(a, m + b);
      TrimEndOfPadded(m, b);
    }
  }

  lemma {:induction false} TrimStartOfPadded(a: string, t: string)
    requires AllSpace(a)
    requires t == [] || !IsJsSpace(t[0])
    ensures TrimStart(a + t) == t
    decreases |a|
  {
    if a != [] {
      assert (a + t)[1..] == a[1..] + t;
      TrimStartOfPadded(a[1..], t);
    } else {
      assert a + t == t;
    }
  }

  lemma {:induction false} TrimEndOfPadded(t: string, b: string)
    requires AllSpace(b)
    requires t == [] || !IsJsSpace(t[|t| - 1])
    ensures TrimEnd(t + b) == t
    decreases |b|
  {
    if b != [] {
      assert (t + b)[..|t + b| - 1] == t + b[..|b| - 1];
      TrimEndOfPadded(t, b[..|b| - 1]);
    } else {
      assert t + b == t;
    }
  }

  lemma TrimIdempotent(s: string)
    ensures Trim(Trim(s)) == Trim(s)
  {
    TrimOfPadded([], Trim(s), []);
    assert [] + Trim(s) + [] == Trim(s);
  }

  /** `pat` occurs in `s` at position `i`. */
  predicate OccursAt(s: string, pat: string, i: int) {
    0 <= i && i + |pat| <= |s| && s[i..i + |pat|] == pat
  }

  /** No occurrence of `pat` starts before position `k` of `s`. */
  predicate AbsentBefore(s: string, pat: string, k: int) {
    forall i :: 0 <= i < k ==> !OccursAt(s, pat, i)
  }

  predicate Absent(s: string, pat: string) {
    AbsentBefore(s, pat, |s|)
  }

  lemma AbsentBeforeTail(s: string, pat: string, k: int)
    requires s != [] && AbsentBefore(s, pat, k)
    ensures AbsentBefore(s[1..], pat, k - 1)
  {
    forall i | 0 <= i < k - 1
      ensures !OccursAt(s[1..], pat, i)
    {
      assert !OccursAt(s, pat, i + 1);
      if i + |pat| <= |s| - 1 {
        assert s[1..][i..i + |pat|] == s[i + 1..i + 1 + |pat|];
      }
    }
  }

  /** An occurrence-free tail stays occurrence-free when a character that
      does not start an occurrence is put in front of it. */
  lemma AbsentCons(c: char, t: string, pat: string)
    requires Absent(t, pat) && !OccursAt([c] + t, pat, 0)
    ensures Absent([c] + t, pat)
  {
    var s := [c] + t;
    forall i | 1 <= i < |s|
      ensures !OccursAt(s, pat, i)
    {
      assert !OccursAt(t, pat, i - 1);
      if i + |pat| <= |s| {
        assert s[i..i + |pat|] == t[i - 1..i - 1 + |pat|];
      }
    }
  }

  lemma SliceOfSlice(s: string, i: int, j: int, a: int, b: int)
    requires 0 <= i <= j <= |s| && 0 <= a <= b <= j - i
    ensures s[i..j][a..b] == s[i + a..i + b]
  {
    var u, v := s[i..j][a..b], s[i + a..i + b];
    assert |u| == |v|;
    forall m | 0 <= m < |u|
      ensures u[m] == v[m]
    { }
  }

  /** Every infix of an occurrence-free text is occurrence-free. */
  lemma AbsentInfix(s: string, i: int, j: int, pat: string)
    requires 0 <= i <= j <= |s| && Absent(s, pat)
    ensures Absent(s[i..j], pat)
  {
    var t := s[i..j];
    forall k | 0 <= k < |t|
      ensures !OccursAt(t, pat, k)
    {
      assert !OccursAt(s, pat, i + k);
      if k + |pat| <= |t| {
        SliceOfSlice(s, i, j, k, k + |pat|);
      }
    }
  }

  /** Trimming removes characters only at the ends, so it creates no occurrence. */
  lemma TrimKeepsAbsent(s: string, pat: string)
    requires Absent(s, pat)
    ensures Absent(Trim(s), pat)
  {
    var r := Trim(s);
    var i := TrimOffset(s);
    AbsentInfix(s, i, i + |r|, pat);
  }

  lemma Regroup(a: string, s: string, b: string, lead: string, m: string, trail: string)
    requires |lead| + |m| <= |s| && lead == s[..|lead|] && m == s[|lead|..|lead| + |m|] && trail == s[|lead| + |m|..]
    ensures a + s + b == (a + lead) + m + (trail + b)
  {
    assert s == lead + m + trail;
  }

  /** Whitespace added around a text does not change its trim. */
  lemma TrimOfSurrounded(a: string, s: string, b: string)
    requires AllSpace(a) && AllSpace(b)
    ensures Trim(a + s + b) == Trim(s)
  {
    var m, i := Trim(s), TrimOffset(s);
    assert SpacedAt(s, i, m);
    PaddedAround(a, s, b, i, m);
  }

  /** An unpadded `m` with only whitespace around it in `s` is the trim of `s`
      with more whitespace around it. */
  lemma PaddedAround(a: string, s: string, b: string, i: nat, m: string)
    requires AllSpace(a) && AllSpace(b) && Unpadded(m) && SpacedAt(s, i, m)
    ensures Trim(a + s + b) == m
  {
    var lead, trail := s[..i], s[i + |m|..];
    Regroup(a, s, b, lead, m, trail);
    AllSpaceConcat(a, lead);
    AllSpaceConcat(trail, b);
    TrimOfPadded(a + lead, m, trail + b);
  }

  /** `s.replace(/pat/g, '')` for a regular expression that matches only the
      literal `pat`: scanning left to right, each occurrence found is removed
      and the scan resumes after it. */
  function DeleteAll(s: string, pat: string): (r: string)
    requires |pat| > 0
    ensures |r| <= |s|
    decreases |s|
  {
    if |s| < |pat| then s
    else if s[..|pat|] == pat then DeleteAll(s[|pat|..], pat)
    else [s[0]] + DeleteAll(s[1..], pat)
  }

  /** The global replace deletes something exactly when the text occurs:
      the leftmost occurrence is always reached by the scan. */
  lemma {:induction false} DeleteAllShortensIffPresent(s: string, pat: string)
    requires |pat| > 0
    ensures |DeleteAll(s, pat)| == |s| <==> Absent(s, pat)
    decreases |s|
  {
    if |s| < |pat| {
    } else if s[..|pat|] == pat {
      assert OccursAt(s, pat, 0);
    } else {
      AbsentStep(s, pat);
      DeleteAllShortensIffPresent(s[1..], pat);
    }
  }

  /** Past a position where no occurrence starts, occurrence-freedom is
      decided by the rest of the text. */
  lemma AbsentStep(s: string, pat: string)
    requires s != [] && !OccursAt(s, pat, 0)
    ensures Absent(s, pat) <==> Absent(s[1..], pat)
  {
    if Absent(s, pat) {
      AbsentBeforeTail(s, pat, |s|);
    }
    if Absent(s[1..], pat) {
      assert s == [s[0]] + s[1..];
      AbsentCons(s[0], s[1..], pat);
    }
  }

  /** Deleting a text that does not occur changes nothing. */
  lemma {:induction false} DeleteAllAbsent(s: string, pat: string)
    requires |pat| > 0 && Absent(s, pat)
    ensures DeleteAll(s, pat) == s
    decreases |s|
  {
    if |s| >= |pat| {
      assert !OccursAt(s, pat, 0);
      AbsentBeforeTail(s, pat, |s|);
      DeleteAllAbsent(s[1..], pat);
      assert s == [s[0]] + s[1..];
    }
  }

  /** A leading occurrence is deleted and the scan resumes after it. */
  lemma DeleteAllLeading(pat: string, t: string)
    requires |pat| > 0
    ensures DeleteAll(pat + t, pat) == DeleteAll(t, pat)
  {
    assert (pat + t)[..|pat|] == pat;
    assert (pat + t)[|pat|..] == t;
  }

  /** When no occurrence starts inside `x`, the prefix `x` is kept verbatim
      and deletion proceeds on what follows. */
  lemma {:induction false} DeleteAllKeepsPrefix(x: string, y: string, pat: string)
    requires |pat| > 0 && AbsentBefore(x + y, pat, |x|)
    ensures DeleteAll(x + y, pat) == x + DeleteAll(y, pat)
    decreases |x|
  {
    if x == [] {
      assert x + y == y;
    } else {
      var s := x + y;
      assert s[1..] == x[1..] + y;
      AbsentBeforeTail(s, pat, |x|);
      DeleteAllKeepsPrefix(x[1..], y, pat);
      DeleteAllStep(s, pat);
      assert [x[0]] + (x[1..] + DeleteAll(y, pat)) == x + DeleteAll(y, pat);
    }
  }

  /** Where no occurrence starts, the first character is kept and the scan
      moves on by one. */
  lemma DeleteAllStep(s: string, pat: string)
    requires |pat| > 0 && s != [] && !OccursAt(s, pat, 0)
    ensures DeleteAll(s, pat) == [s[0]] + DeleteAll(s[1..], pat)
  {
    if |s| < |pat| {
      assert s == [s[0]] + s[1..];
    }
  }

  /** `pat` occurs somewhere in `s`. */
  predicate Contains(s: string, pat: string) {
    exists i :: 0 <= i <= |s| && OccursAt(s, pat, i)
  }

  lemma ContainsSelf(s: string)
    ensures Contains(s, s)
  {
    assert OccursAt(s, s, 0);
  }

  lemma ContainsInLeft(x: string, y: string, pat: string)
    requires Contains(x, pat)
    ensures Contains(x + y, pat)
  {
    var i :| 0 <= i <= |x| && OccursAt(x, pat, i);
    assert (x + y)[i..i + |pat|] == x[i..i + |pat|];
    assert OccursAt(x + y, pat, i);
  }

  lemma ContainsInRight(x: string, y: string, pat: string)
    requires Contains(y, pat)
    ensures Contains(x + y, pat)
  {
    var i :| 0 <= i <= |y| && OccursAt(y, pat, i);
    assert (x + y)[|x| + i..|x| + i + |pat|] == y[i..i + |pat|];
    assert OccursAt(x + y, pat, |x| + i);
  }

  lemma ContainsTransitive(s: string, t: string, pat: string)
    requires Contains(s, t) && Contains(t, pat)
    ensures Contains(s, pat)
  {
    var i :| 0 <= i <= |s| && OccursAt(s, t, i);
    var j :| 0 <= j <= |t| && OccursAt(t, pat, j);
    assert s[i..i + |t|] == t;
    var a, b := s[i + j..i + j + |pat|], t[j..j + |pat|];
    forall k | 0 <= k < |pat|
      ensures a[k] == b[k]
    {
      assert s[i..i + |t|][j + k] == t[j + k];
    }
    assert OccursAt(s, pat, i + j);
  }

  /** A text contains each of its middle pieces. */
  lemma ContainsMiddle(x: string, m: string, y: string)
    ensures Contains(x + m + y, m)
  {
    assert (x + m + y)[|x|..|x| + |m|] == m;
    assert OccursAt(x + m + y, m, |x|);
  }

  /** The pieces written one after another. */
  function Concat(parts: seq<string>): (r: string)
    ensures parts != [] ==> parts[0] <= r
  {
    if parts == [] then "" else parts[0] + Concat(parts[1..])
  }

  /** Concatenation may be split at any piece boundary. */
  lemma {:induction false} ConcatSplit(parts: seq<string>, i: nat)
    requires i <= |parts|
    ensures Concat(parts) == Concat(parts[..i]) + Concat(parts[i..])
  {
    if i == 0 {
      assert parts[..0] == [] && parts[0..] == parts;
    } else {
      ConcatSplit(parts[1..], i - 1);
      assert parts[1..][..i - 1] == parts[1..i];
      assert parts[1..][i - 1..] == parts[i..];
      assert parts[..i][1..] == parts[1..i];
    }
  }

  /** Seven pieces concatenate to the pieces written one after another. */
  lemma ConcatSeven(a: string, b: string, c: string, d: string, e: string, f: string, g: string)
    ensures Concat([a, b, c, d, e, f, g]) == a + b + c + d + e + f + g
  {
    var p := [a, b, c, d, e, f, g];
    assert Concat(p[6..]) == g by { assert p[6..][1..] == []; }
    assert Concat(p[5..]) == f + g by { assert p[5..][1..] == p[6..]; }
    assert Concat(p[4..]) == e + f + g by { assert p[4..][1..] == p[5..]; }
    assert Concat(p[3..]) == d + e + f + g by { assert p[3..][1..] == p[4..]; }
    assert Concat(p[2..]) == c + d + e + f + g by { assert p[2..][1..] == p[3..]; }
    assert Concat(p[1..]) == b + c + d + e + f + g by { assert p[1..][1..] == p[2..]; }
    assert a + (b + c + d + e + f + g) == a + b + c + d + e + f + g;
  }

  /** Seven pieces written one after another: the text starts with the first,
      ends with the last, and contains every piece and every piece followed
      by its successor. */
  lemma SevenPieces(a: string, b: string, c: string, d: string, e: string, f: string, g: string)
    ensures var r := a + b + c + d + e + f + g;
      && a <= r && |g| <= |r| && r[|r| - |g|..] == g
      && Contains(r, b) && Contains(r, c) && Contains(r, d) && Contains(r, e) && Contains(r, f)
      && Contains(r, a + b) && Contains(r, b + c) && Contains(r, c + d)
      && Contains(r, d + e) && Contains(r, e + f) && Contains(r, f + g)
  {
    var p := [a, b, c, d, e, f, g];
    ConcatSeven(a, b, c, d, e, f, g);
    ConcatEndsWithLast(p);
    ConcatHasPieces(p, 0);
    ConcatHasPieces(p, 1);
    ConcatHasPieces(p, 2);
    ConcatHasPieces(p, 3);
    ConcatHasPieces(p, 4);
    ConcatHasPieces(p, 5);
  }

  /** The concatenation ends with the last piece. */
  lemma ConcatEndsWithLast(parts: seq<string>)
    requires parts != []
    ensures var r, last := Concat(parts), parts[|parts| - 1];
      |last| <= |r| && r[|r| - |last|..] == last
  {
    var n := |parts| - 1;
    ConcatSplit(parts, n);
    assert parts[n..] == [parts[n]];
    assert Concat(parts[n..]) == parts[n] + Concat([]);
  }

  /** Every piece, and every piece together with the one after it, occurs in
      the concatenation. */
  lemma ConcatHasPieces(parts: seq<string>, i: nat)
    requires i < |parts|
    ensures Contains(Concat(parts), parts[i])
    ensures i + 1 < |parts| ==> Contains(Concat(parts), parts[i] + parts[i + 1])
  {
    ConcatSplit(parts, i);
    var before, rest := Concat(parts[..i]), parts[i..];
    assert rest[0] == parts[i];
    assert Concat(rest) == parts[i] + Concat(rest[1..]);
    assert Concat(parts) == before + parts[i] + Concat(rest[1..]);
    ContainsMiddle(before, parts[i], Concat(rest[1..]));
    if i + 1 < |parts| {
      var rest2 := rest[1..];
      assert rest2[0] == parts[i + 1];
      assert Concat(rest2) == parts[i + 1] + Concat(rest2[1..]);
      assert Concat(parts) == before + (parts[i] + parts[i + 1]) + Concat(rest2[1..]);
      ContainsMiddle(before, parts[i] + parts[i + 1], Concat(rest2[1..]));
    }
  }
}
